=== FILE: README.md ===
# Data.js 0.6.0 core, modelled in Dafny

This project models the in-memory typed object graph of Data.js (`data.js`).
It covers:

- the schema layer: `Data.Type` construction and property declarations;
- typed entities: `Data.Object` with `property`, `get` and `set`;
- the graph store: `Data.Graph` with `merge`, `get`, `set`, `del` and `find`;
- the collection view: `Data.Collection` with `create`, `get`, `at`, `index`, `key`, `add` and `find`;
- the shared query filter `Data.Query.query`;
- the id scheme of `Data.uuid`.

Every operation is a pure function over immutable datatypes. The graph and collection states are records of a sequence plus a `map` index. A JavaScript `TypeError` becomes an `Err(Fault)` result, so an operation's crash cases are part of its contract. The faults are:

- a known type id cannot be re-`set`;
- a record with no `type` becomes an object without a chain, and the first key its walk visits throws when `property` reverses the missing chain (a record whose walk visits no key is the exception: see `Objects.NewEntity` under "Left out");
- no `_id` and no string type to derive one from;
- `meta` given to `set`;
- a chain entry that is not a type with declarations;
- a non-string id given to a collection's `get`, which calls `id.match`;
- a query whose `type` names no node, or an entity rather than a type (see "Left out" for the entity case);
- reading `key(i)` past the end.

Modules, one file each:

| file | module | what it holds |
|---|---|---|
| results.dfy | Results | `Option`, `Result`, the `Fault` kinds |
| values.dfy | Values | scalars and arrays, JavaScript truthiness, `toArray`, `_.intersect`, the string a value becomes as an object key |
| ids.dfy | Ids | the synthesized-id format and its parser |
| index.dfy | Index | id-to-position maps (`keys`) |
| schema.dfy | Schema | records, property declarations, `Data.Type`, `isValueType` |
| objects.dfy | Objects | entities, hosts, `property`, `get`, `set`, `new Data.Object` |
| query.dfy | Query | `match` and the ordered scan |
| collections.dfy | Collections | `Data.Collection` |
| graphs.dfy | Graphs | `Data.Graph` |

A graph looks a node up with `keys[id]`, and JavaScript converts `id` to a string there: a list becomes its members joined by commas, a number its decimal digits, `null` and `undefined` their names. `Values.KeyString` models that conversion, so a one-element list finds what its member finds.

Underscore's `_.each` and `_.find` walk an object whose `length` is a number as if it were an array: they visit the positions `0 .. length-1`, not the object's keys. `set` walks the record this way (data.js:229) and query matching walks the query this way (data.js:103). `Values.Visited` gives the keys visited, so a record such as `{_id: "t1", type: "/type/track", name: "Song", length: 240}` stores neither `name` nor `length`, and a query such as `{type: "/type/track", length: 240}` ignores its `type` and matches every entity that stores none of the positions.

Three interfaces are modelled as parameters:

- **Token.** The random part of a synthesized id is a `token` parameter: any 32-character string over `0-9a-f`.
- **Host.** The entity's `host` back-reference is an explicit `Host` value. It holds the parts of the graph or collection that `get` reads. A collection records each member's host as its `Home`: the collection itself for a member it built, or the store the member was boxed from by `create`, so the members of a graph query keep resolving through the graph.
- **Graph partitions.** `types` and `objects` are lists of positions into `nodes`. This mirrors the source's arrays, which hold the same node objects as `nodes`, so an in-place update shows through them.

## Model

| member | source | states |
|---|---|---|
| Values.Common | data.js:105 | the intersection holds exactly the atoms found in both lists |
| Values.IntersectsIff | data.js:105-106 | a key's values intersect iff some expected atom equals some actual atom |
| Values.DecimalRoundTrip | data.js:269 | a natural number used as a key is written as decimal digits with no leading zero, and those digits read back as the number |
| Values.SingletonKey | data.js:269 | a one-element list becomes the same key as its member, unless that member is null or undefined (which join as "") |
| Values.Positions | data.js:229-232 | every key visited for a `length` of `n` is a canonical decimal key (digits only, no leading zero) of a position below `n`, so none for `n <= 0` |
| Values.Visited | data.js:229-232 | an object whose `length` is not a number is visited at its own keys; one whose `length` is a number only at canonical decimal keys of positions below that `length` |
| Values.VisitedPositions | data.js:229-232 | an array-like object is visited at the decimal key of position `i` exactly when `0 <= i < length` |
| Ids.LastSegment | data.js:274 | the last `/`-segment is a slash-free suffix, preceded by a `/` unless it is the whole string |
| Ids.Uuid | data.js:81 | the id is the prefix followed by exactly 32 token characters over `0-9a-f` |
| Ids.SynthesizedIdRoundTrip | data.js:274 | a synthesized id `/<segment>/<token>` splits back into the type's last segment and the token |
| Index.Build | data.js:349-351 | the key map from `create` indexes every member's id, at the position of its last occurrence |
| Index.BuildIndexesDistinct | data.js:349-351 | over distinct ids the built map is an exact bijection between ids and positions |
| Index.IndexedIdsAreDistinct | data.js:254 | an exact index can only exist over distinct ids |
| Index.AppendIndexes | data.js:284-285 | indexing a new id at the old length keeps the index exact |
| Schema.NormalizeDecl | data.js:141-144 | a declaration's kind becomes a list with the same entries; `unique` stays a given boolean and otherwise becomes true; normal declarations are fixed points |
| Schema.NormalizeTable | data.js:140-144 | every declaration of the table is normalised, with the same keys; a missing table stays missing |
| Schema.MakeType | data.js:132-145 | a type node keeps the record's id and name and has no deleted flag; it declares exactly the record's keys, each as the normalisation of the record's declaration |
| Schema.RebuildType | data.js:343-344 | rebuilding a type from itself, as `create` does, gives the same type (normalisation is idempotent) |
| Schema.ValueKindIsTheLastKind | data.js:41-43 | whether a kind is a value kind depends only on the last listed kind |
| Objects.HostGet | data.js:268-270 | a graph never throws and finds a node iff the key JavaScript makes of the value is indexed, and then the node at that position; a collection throws exactly on a non-string id |
| Objects.GraphGetOfSingletonList | data.js:268-270 | a graph finds under a one-element list, such as a unique reference stored as `["id"]`, exactly what it finds under the list's member |
| Objects.PropertyPrefersMostSpecific | data.js:183-190 | resolution returns declaration `d` iff some chain entry declares the key as `d` and every later (more specific) entry can be consulted and does not declare it |
| Objects.PropertyUndeclared | data.js:183-190 | a key is undeclared iff every chain entry can be consulted and none declares it |
| Objects.AsWrittenAlternates | data.js:186 | as written, each call reverses the stored chain, so every second call searches from the most general type |
| Objects.AsWrittenSecondLookupDisagrees | data.js:186 | concrete chain `[/type/a, /type/b]` both declaring `p`: the first lookup gives b's declaration, the second gives a's |
| Objects.LookupAll | data.js:217 | mapping `host.get` keeps length and order, and fails iff one lookup fails |
| Objects.Get | data.js:207-219 | null when undeclared or the stored value is falsy; the raw value for a value kind; `host.get(value)` for a unique reference; `host.get` mapped over the elements for a non-unique one; each branch in both directions |
| Objects.GetReferenceList | data.js:216-217 | a non-unique reference list reads back as one host answer per member, in order |
| Objects.TypeOf | data.js:178-180 | on a graph, `type()` never throws and answers the node indexed under the key JavaScript makes of the most specific chain entry (`"undefined"` for an empty chain), and nothing when that key is not indexed; when the answer is a type with declarations, each declaration is what property resolution returns for its key; a collection answers its own type for an id under `/type/`; an empty chain throws exactly on a collection |
| Objects.FalsyReadsAsNull | data.js:211 | `0`, `false`, `""`, null and undefined stored under a declared key read back as null |
| Objects.Set | data.js:223-233 | succeeds iff no truthy `meta` and every key `_.each` visits resolves; a truthy `type` replaces the chain; visited keys declared along it, other than `type`, are stored with the record's value (undefined for an absent position), overwriting; every other stored value is kept; id and deletion flag are unchanged |
| Objects.SetIdempotent | data.js:223-233 | setting the same record twice gives the same entity as setting it once |
| Objects.NewEntity | data.js:168-173 | building succeeds iff there is no truthy `meta`, `type` is truthy and every key `_.each` visits resolves along that chain; the object carries the record's id and chain and stores exactly the visited keys declared along it, other than `type`, each with the record's value |
| Objects.ArrayLikeSkipsNamedKeys | data.js:229-232 | `set` of a record with a numeric `length` leaves every key that is not made of digits as it was, so `name` and `length` themselves are not stored |
| Objects.NewEntityOfArrayLike | data.js:168-173 | an object built from a record with a numeric `length` stores only position keys |
| Objects.NewEntityConforms | data.js:229-232 | a new object stores only keys declared along its chain, and never `type` |
| Objects.SetKeepsConformance | data.js:229-232 | an update that keeps the chain keeps every stored key declared |
| Query.MatchesIff | data.js:100-112 | an entity matches iff for every key `_.find` visits in the query some expected value equals some actual value; the actual value is the chain for `type` and the stored value otherwise |
| Query.ArrayLikeQueryIgnoresKeys | data.js:100-112 | a query with a numeric `length` matches every entity that stores none of the visited positions, whatever its named keys, `type` included, ask for |
| Query.AbsentKeyMatchesUndefined | data.js:96-105 | an absent property compares as `[undefined]`, so a query for `undefined` matches it |
| Query.FilterIsOrdered | data.js:115-117 | the k-th kept element is the element at the k-th satisfying position |
| Query.SelectIsOrderedFilter | data.js:115-117 | the result is the matching entities at increasing positions, one per matching position |
| Query.SelectIsComplete | data.js:115-117 | an entity is in the result iff it is scanned and matches |
| Query.SelectKeepsDistinctIds | data.js:115-117 | a selection from distinct ids has distinct ids |
| Collections.Create | data.js:343-353 | the collection holds the given list as it is, with its length, each member keeping its given host; the type is the given one rebuilt, unchanged when already normal; over distinct ids the key index is exact |
| Collections.SelectionOfValidIsDistinct | data.js:115-118 | a query over a valid collection yields a list that `create` can index exactly |
| Collections.Get | data.js:358-361 | an id under `/type/` answers the collection's type; another string id answers the member with that id, if there is one; a non-string id throws |
| Collections.IndexOfKeyAt | data.js:364-376 | for every valid position `i`, `index(key(i)) == i` and `at(i)` has that id |
| Collections.KeyAtIndexOf | data.js:369-376 | every indexed id is the key of the position it records |
| Collections.Add | data.js:379-394 | an id under `/type/` fails; a new id succeeds iff the retyped record builds an object hosted by the collection, and that object is appended and indexed at the old length, with `length` kept equal to the member count; a known id succeeds iff the member's own `set` of the retyped record succeeds through the member's own host, and its result replaces the member in place, with positions and length unchanged; the member gets the (possibly synthesized) id and the collection's type; homogeneity is kept |
| Collections.AddAgainKeepsPosition | data.js:383-392 | adding the same record twice leaves keys and length as after the first add |
| Collections.AddAll | data.js:337-339 | adding no records changes nothing; adding a list keeps the index exact, the type fixed and homogeneity, keeps every indexed id, and grows the members by at most one per record |
| Collections.AddAllSnoc | data.js:337-339 | adding one more record succeeds iff adding the others succeeds and then `add` of that record does, and gives what that `add` gives |
| Collections.AddAllKeepsGivenIds | data.js:337-339 | after a successful run of adds every record that carried its own id is a member under that id |
| Collections.New | data.js:331-340 | with no objects the collection is empty and typed by the type record; otherwise it is exactly indexed, homogeneous, typed by the type record and holds at most one member per object |
| Collections.NewSnoc | data.js:331-340 | building with one more object succeeds iff building with the others succeeds and then `add` of that object does, and gives what that `add` gives |
| Collections.Find | data.js:397-400 | succeeds iff the collection's type id is under `/type/`; the result is typed by the collection's type, rebuilt, and holds the members matching the query with `type` overwritten, each keeping the host it had in the collection; unless the query has a numeric `length`, each carries the collection's type |
| Collections.FindIgnoresCallerType | data.js:398 | whatever `type` the caller's query names, `find` answers the same |
| Graphs.KindPositions | data.js:288-292 | the partition is the increasing list of exactly the positions of one kind |
| Graphs.PartitionsAreDisjoint | data.js:288-292 | in a valid graph every node sits in exactly one partition, and in `types` iff it is a type |
| Graphs.Empty | data.js:250-255 | a new graph is valid and empty |
| Graphs.Get | data.js:268-270 | `get(id)` finds a node iff a node has that id, and that node is in the graph |
| Graphs.GetIsIndexed | data.js:268-270 | `get(id)` finds a node iff the id is indexed, and it is the node at the indexed position |
| Graphs.ResolveId | data.js:273-274 | a truthy `_id` is used as given; otherwise the id is synthesized from the most specific type's last segment and parses back to it; this fails iff there is no `_id` and the most specific type is not a string |
| Graphs.Register | data.js:284-292 | registering appends the node, indexes it at the old length and files its position in exactly one partition |
| Graphs.Insert | data.js:281-292 | a fresh id whose most specific type is `/type/type` always yields the Data.Type built from the record; otherwise it succeeds iff the record builds an object hosted by the graph, and yields that object; the node is registered at the end |
| Graphs.Update | data.js:293-295 | a known entity is updated iff its own `set` of the record succeeds, and is replaced at its position by the result; a known type fails |
| Graphs.Set | data.js:272-297 | succeeds iff the record's id resolves and then either the id is known and names an entity whose own `set` succeeds, or the id is fresh and the record is a type record or builds an object hosted by the graph; a fresh id yields exactly that Data.Type or object, registered at the end; the result is valid, moves no node, and indexes the node under the resolved id |
| Graphs.SetFresh | data.js:281-292 | for a fresh id, the node list grows by exactly that node, `keys[id]` is the old length, `get(id)` returns the node, and it is filed as a type iff its most specific type is `/type/type` |
| Graphs.SetExisting | data.js:293-295 | for a known id, keys and both partitions are unchanged and only the node at that position is replaced, by the entity's `set`; a known type fails |
| Graphs.SetTwiceKeepsPosition | data.js:281-295 | setting the same record twice leaves keys, partitions and node count as after the first set |
| Graphs.Merge | data.js:262-265 | merging nothing leaves the graph as it is; a successful merge keeps the graph valid and moves no node |
| Graphs.MergeSnoc | data.js:262-265 | merging one more entry succeeds iff merging the others succeeds and then `set` of that entry under its key does, and gives the graph that `set` leaves |
| Graphs.MergeIndexesEveryKey | data.js:263 | after a merge, every non-empty key of the merged object is indexed |
| Graphs.Del | data.js:305-309 | `del` changes neither the index nor the partitions, only flags the node at that id; an unknown id changes nothing |
| Graphs.DeletedStaysResolvable | data.js:305-309 | a deleted node is still found by `get`, with the flag set |
| Graphs.EntitiesHaveDistinctIds | data.js:250-297 | the entities of a valid graph have distinct ids |
| Graphs.Find | data.js:114-118 | succeeds iff the key JavaScript makes of the query's `type` names a type node; the result is typed by that type, rebuilt, and holds exactly the matching entities in insertion order, indexed exactly, each resolving through the graph |
| Graphs.FindSingletonTypeList | data.js:114-118 | a query whose `type` is a one-element list gives the same result as one naming its member |
| Graphs.FoundMembersUseGraph | data.js:345 | every member of a graph query's result has the graph as its host, as the source's result holds the graph's own objects |
| Graphs.DeletedStillFound | data.js:305-309 | a matching entity stays in query results after `del`, with its flag set |

## Left out

- Randomness: `Math.random` in `Data.uuid` is replaced by the `token` parameter. The RFC 4122 branch (data.js:64-80) is unreachable because `len` is 32, and is not modelled.
- Underscore itself is not part of this model. `_.each` and `_.find` over plain objects are modelled by the keys they visit (`Values.Visited`), following the array-like rule of the Underscore releases before 1.8, where any numeric `length` counts. From 1.8 on, only a `length` with `0 <= length <= 2^53 - 1` counts, so there a negative `length` is walked by the object's own keys rather than as zero positions.
- Module wiring, the Underscore `require` and the `_.Events` mixins (data.js:8-27, 147, 175, 259, 355) hold no logic.
- `toJSON` of types, objects, graphs and collections is serialisation and is not modelled.
- `Collection.each` runs caller callbacks with arbitrary effects.
- `meta` and `indexes` of `Data.Type` (data.js:136-138) are not interpreted anywhere and are not kept.
- The `key` argument of `Object.get` (data.js:207) is unused by the source and is not a parameter here.
- Partial effects before a throw are not modelled. For example, a merge that fails halfway keeps the nodes it already set, and `set` assigns `node._id` before it can fail. The model returns only `Err`.
- The caller's objects are not mutated. The model returns new values and leaves its inputs untouched, while the source writes into what it is given:
  - `Graph.set` writes `_id` into the record (data.js:274), and `merge` does so through `_.extend` (data.js:263);
  - `Collection.add` writes `_id` and `type` into the record (data.js:380-381);
  - `Data.Type` normalises the record's own declaration objects in place (data.js:142-143);
  - `Collection.find` overwrites the caller's query's `type` (data.js:398);
  - `property` reverses the caller's `type` array, which `set` stores as the chain (see `Objects.Set` below).
- Shared objects are copies here. A query result (`Graphs.Find`, `Collections.Find`) holds copies of the members, and each member's host is a snapshot of the store taken when the result is built. In the source the result holds the graph's own objects (data.js:345), which keep the graph as their live host (data.js:170). So a later `set` or `del` on the graph shows through an earlier result there, and an `add` on a result that updates a known member also changes the graph's node. Here each call returns only its own updated value.
- Inherited members of a plain object are not keys. `keys["constructor"]` or `keys["__proto__"]` reach `Object.prototype` in the source; here an id is indexed only when it was set.
- Numbers are integers: floating point, `NaN` and objects or dates as stored values are not modelled. A value is a scalar or a list of scalars. As a key, an integer is written in plain decimal; JavaScript switches to exponent notation from 10^21 on.
- Values.Common: does not drop duplicates as `_.intersect` does. Only whether the intersection is empty is observed.
- Graphs.ResolveId: a truthy non-string `_id` is excluded by a precondition. Nodes carry string ids; the string conversion is modelled for lookups only.
- Collections.Add: the same precondition applies. The collection's `id.match` would throw on a non-string id.
- Collections.New: requires the type record to carry a string `_id`. Without one, `add` sets each record's `type` to `undefined` (data.js:381), so `set` leaves the new object without a chain (data.js:226). An `add` without an `_id` throws on `split` of `undefined` (data.js:380). A record whose walk visits some key throws in its first `property` call, on `this.types.reverse()` (data.js:186). A record whose walk visits no key, such as `{_id: "x", length: 0}`, is added as a chainless object. So such a type record builds an empty collection or one of chainless objects, and that case is not modelled.
- Objects.NewEntity: a record without a truthy `type` is always `Err(NoTypeChain)` here, because an entity in this model always has a chain. In the source, `new Data.Object` builds the object without a chain (data.js:168-173, 226). It throws only when the walk of `set` visits some key, since each key calls `property` (data.js:229-230). A record whose walk visits no key, one with a numeric `length` of 0 or less such as `{_id: "x", length: 0}`, becomes a chainless object without error. That object throws on its first `property`, `get` or `type` call. `Collections.Add` shares this gap for a collection whose type id is the empty string.
- Graphs.Insert: inherits the gap of `Objects.NewEntity`. `Graph.set({_id: "x", length: 0})` registers a chainless object among the graph's objects (data.js:283-292), while the model fails with `NoTypeChain` and leaves the graph as it was.
- Graphs.Set: the same gap, through `Graphs.Insert`. `Graphs.Merge` shares it for an entry of that shape.
- Objects.Property: a chain entry whose lookup gives an entity rather than a type counts as `BrokenTypeChain`. The source would read that entity's stored values as if they were declarations.
- Objects.Set: resolves every key without reordering the chain, as the Findings row intends. As written, each `property` call reverses `this.types` in place (data.js:186), and `set` makes one call per record key (data.js:230). So a record with an odd number of keys leaves the stored chain reversed. The stored chain is the caller's own `type` array (data.js:226), so that array is reversed as well. For example, `graph.set({_id: "x", type: ["/type/a", "/type/b"], name: "n"})` stores `["/type/b", "/type/a"]`. `Graph.set` then files the new node by `_.last(types)` of that same, now reversed, array (data.js:283, 288). So, in a graph holding both type nodes, `graph.set({_id: "x", type: ["/type/type", "/type/x"], name: "n"})` builds an object, because the last entry is `/type/x` at first, but files it among the types, where `find` never looks. The model files by the chain as given.
- Objects.Set: a `properties` member of an entity record is treated as an ordinary key. The separate `schema` part of a record is used only by `Data.Type`.
- Graphs.Find: a query `type` that names an entity is `QueryTypeMissing`. The source passes the entity to `new Data.Type` (data.js:332). That takes the entity's stored values as declarations (data.js:140-144), and throws only when one of them is null or undefined. The resulting collection would be typed by a table of stored values, which this model's declarations cannot express.
- Collections.Find: the same holds for a collection whose own type id is not under `/type/`. Its `get` then answers a member with that id, if there is one (data.js:359-360).

Behaviour of the code that is easy to misread:

- Query matching wraps an absent value as `[undefined]`, not as an empty list (`Query.AbsentKeyMatchesUndefined`).
- `Collection.create` does not make its members' most specific type the collection's type. A query result only guarantees that each member's chain contains it (`Collections.Find`), and not even that when the query has a numeric `length`.
- A collection `get` on a non-string id throws rather than returning nothing (`Objects.HostGet`).
- The conformance invariant (every stored key is declared along the chain) survives updates that keep the chain (`Objects.SetKeepsConformance`). It does not survive a `set` that changes the chain, because keys stored earlier are kept.

## Findings

| source | as written | input that shows it | evidently intended | confidence | as-written member | corrected member |
|---|---|---|---|---|---|---|
| data.js:186 | `_.find(this.types.reverse(), ...)` reverses the stored chain in place on every call, so every second lookup searches from the most general type | chain `[/type/a, /type/b]` where both types declare `p`: the first `property('p')` gives b's declaration, the second gives a's | every lookup walks from the most specific type backwards without changing the chain, so the more specific declaration always wins | not executed | Objects.PropertyAsWritten (counterexample: Objects.AsWrittenSecondLookupDisagrees) | Objects.Property (proved: Objects.PropertyPrefersMostSpecific) |

=== FILE: collections.dfy ===
/** `Data.Collection`: an ordered list of entities with its own id index,
    typed by one Data.Type. */
module Collections {

  import opened Results
  import opened Values
  import opened Schema
  import opened Objects
  import opened Index
  import opened Ids
  import opened Query

  /** Where a member resolves its chain and references: through the collection
      itself, or through the store it was boxed from. `create` keeps each
      object's own `host`, so the members of a graph query keep the graph. */
  datatype Home = Own | Via(host: Host)

  datatype Collection = Collection(ctype: TypeNode, objects: seq<Entity>, keys: map<string, nat>, length: nat,
                                   homes: seq<Home>)

  /** `length` counts the members, every member has a home, and `keys` indexes
      exactly the members' ids by position. */
  predicate Valid(c: Collection) {
    c.length == |c.objects| && |c.homes| == |c.objects| && Indexes(EntityIds(c.objects), c.keys)
  }

  /** Every member's chain is exactly the collection's type, as `add` leaves it. */
  predicate Homogeneous(c: Collection) {
    forall i :: 0 <= i < |c.objects| ==> c.objects[i].types == [Str(c.ctype.id)]
  }

  function AsHost(c: Collection): Host {
    CollectionHost(c.ctype, c.objects, c.keys)
  }

  /** The host of the member at position `i`: the collection unless the member came from elsewhere. */
  function MemberHost(c: Collection, i: nat): Host {
    if i < |c.homes| && c.homes[i].Via? then c.homes[i].host else AsHost(c)
  }

  /** `Data.Collection.create(type, objects)`: rebuild the type, take the list as
      it is, and index it by position. Members are neither copied nor checked,
      and each keeps the host it had, given here as `hosts`. */
  function Create(t: TypeNode, objs: seq<Entity>, hosts: seq<Host>): (c: Collection)
    requires |hosts| == |objs|
    ensures c.objects == objs && c.length == |objs|
    ensures c.ctype == MakeType(t.id, TypeRecord(t))
    ensures IsNormalTable(t.properties) ==> c.ctype == t.(deleted := false)
    ensures |c.homes| == |objs| && forall i :: 0 <= i < |objs| ==> c.homes[i] == Via(hosts[i])
    ensures Distinct(EntityIds(objs)) ==> Valid(c)
  {
    CreateFacts(t, objs);
    Collection(MakeType(t.id, TypeRecord(t)), objs, Build(EntityIds(objs)), |objs|,
               seq(|objs|, i requires 0 <= i < |objs| => Via(hosts[i])))
  }

  lemma CreateFacts(t: TypeNode, objs: seq<Entity>)
    ensures IsNormalTable(t.properties) ==> MakeType(t.id, TypeRecord(t)) == t.(deleted := false)
    ensures Distinct(EntityIds(objs)) ==> Indexes(EntityIds(objs), Build(EntityIds(objs)))
  {
    if IsNormalTable(t.properties) {
      RebuildType(t);
    }
    if Distinct(EntityIds(objs)) {
      BuildIndexesDistinct(EntityIds(objs));
    }
  }

  /** The members of a valid collection have distinct ids, and so does any selection of them. */
  lemma SelectionOfValidIsDistinct(c: Collection, q: Selector)
    ensures Valid(c) ==> Distinct(EntityIds(Select(c.objects, q)))
  {
    if Valid(c) {
      IndexedIdsAreDistinct(EntityIds(c.objects), c.keys);
      SelectKeepsDistinctIds(c.objects, q);
    }
  }

  /** `get(id)`: the collection's own type for an id under `/type/`, else the member with that id. */
  function Get(c: Collection, v: Value): (r: Result<Option<Node>>)
    ensures r.Err? <==> !(v.One? && v.atom.Str?)
    ensures v.One? && v.atom.Str? && HasTypePrefix(v.atom.s) ==> r == Ok(Some(TypeN(c.ctype)))
    ensures Valid(c) && v.One? && v.atom.Str? && !HasTypePrefix(v.atom.s) ==>
      (r.value.Some? <==> exists i :: 0 <= i < |c.objects| && c.objects[i].id == v.atom.s)
    ensures Valid(c) && r.Ok? && r.value.Some? && !HasTypePrefix(v.atom.s) ==>
      r.value.value.EntityN? && r.value.value.e.id == v.atom.s && r.value.value.e in c.objects
  {
    HostGet(AsHost(c), v)
  }

  /** `at(i)`: the member at position `i`, undefined outside the list. */
  function At(c: Collection, i: int): Option<Entity> {
    if 0 <= i < |c.objects| then Some(c.objects[i]) else None
  }

  /** `index(key)`: the position recorded for an id. */
  function IndexOf(c: Collection, key: string): Option<nat> {
    Lookup(c.keys, key)
  }

  /** `key(i)`: the id of the member at position `i`; reading `_id` past the end throws. */
  function KeyAt(c: Collection, i: int): Result<string> {
    if 0 <= i < |c.objects| then Ok(c.objects[i].id) else Err(NoSuchPosition)
  }

  /** For every valid position, `index(key(i)) == i`, and the member there has that id. */
  lemma IndexOfKeyAt(c: Collection, i: int)
    requires Valid(c) && 0 <= i < c.length
    ensures KeyAt(c, i).Ok? && IndexOf(c, KeyAt(c, i).value) == Some(i)
    ensures At(c, i).Some? && At(c, i).value.id == KeyAt(c, i).value
  {
  }

  /** Conversely, every indexed id is the key of the position it records. */
  lemma KeyAtIndexOf(c: Collection, key: string)
    requires Valid(c) && IndexOf(c, key).Some?
    ensures KeyAt(c, IndexOf(c, key).value) == Ok(key)
  {
  }

  datatype Added = Added(collection: Collection, entity: Entity)

  /** The id `add` uses: the record's own, or one synthesized from the collection's type id. */
  function AddedId(c: Collection, rec: Record, token: string): string
    requires IdIsString(rec) && IsToken(token)
  {
    if Truthy(Field(rec, "_id")) then rec.fields["_id"].atom.s else SynthesizedId(c.ctype.id, token)
  }

  /** The record `add` hands on: its id filled in and its type forced to the collection's type. */
  function Retyped(c: Collection, rec: Record, id: string): Record {
    Record(rec.fields["_id" := One(Str(id))]["type" := One(Str(c.ctype.id))], rec.schema)
  }

  /** The record carries `id` and names the collection's type. */
  predicate Prepared(c: Collection, rec: Record, id: string) {
    && "_id" in rec.fields && rec.fields["_id"] == One(Str(id))
    && "type" in rec.fields && rec.fields["type"] == One(Str(c.ctype.id))
  }

  /** `add(obj)`. A new id is built as an entity hosted by the collection,
      appended and indexed; a known member is updated in place by its own `set`,
      through its own host. */
  function Add(c: Collection, rec: Record, token: string): (r: Result<Added>)
    requires Valid(c) && IdIsString(rec) && IsToken(token)
    ensures HasTypePrefix(AddedId(c, rec, token)) ==> r == Err(TypeNotUpdatable)
    ensures var id := AddedId(c, rec, token);
      !HasTypePrefix(id) && id !in c.keys ==>
        (r.Ok? <==> NewEntity(Retyped(c, rec, id), AsHost(c)).Ok?) &&
        (r.Ok? ==> r.value.entity == NewEntity(Retyped(c, rec, id), AsHost(c)).value)
    ensures var id := AddedId(c, rec, token);
      !HasTypePrefix(id) && id in c.keys ==>
        (r.Ok? <==> Objects.Set(c.objects[c.keys[id]], Retyped(c, rec, id), MemberHost(c, c.keys[id])).Ok?) &&
        (r.Ok? ==> r.value.entity == Objects.Set(c.objects[c.keys[id]], Retyped(c, rec, id), MemberHost(c, c.keys[id])).value)
    ensures r.Ok? ==> Valid(r.value.collection) && r.value.collection.ctype == c.ctype
    ensures r.Ok? ==> r.value.entity.id == AddedId(c, rec, token)
    ensures r.Ok? && c.ctype.id != "" ==> r.value.entity.types == [Str(c.ctype.id)]
    ensures r.Ok? && Homogeneous(c) ==> Homogeneous(r.value.collection)
    ensures r.Ok? && AddedId(c, rec, token) !in c.keys ==>
      var c' := r.value.collection;
      && c'.objects == c.objects + [r.value.entity]
      && c'.keys == c.keys[AddedId(c, rec, token) := |c.objects|]
      && c'.length == c.length + 1
      && c'.homes == c.homes + [Own]
    ensures r.Ok? && AddedId(c, rec, token) in c.keys ==>
      var c' := r.value.collection;
      var at := c.keys[AddedId(c, rec, token)];
      && c'.keys == c.keys && c'.length == c.length && c'.homes == c.homes
      && c'.objects == c.objects[at := r.value.entity]
  {
    var id := AddedId(c, rec, token);
    match CollectionLookup(c.ctype, c.objects, c.keys, id)
    case None =>
      var r := AddNew(c, id, Retyped(c, rec, id));
      if r.Ok? then
        HomogeneousAppend(c, r.value.entity);
        r
      else r
    case Some(TypeN(_)) => Err(TypeNotUpdatable)
    case Some(EntityN(_)) =>
      var r := AddExisting(c, id, Retyped(c, rec, id));
      if r.Ok? then
        HomogeneousReplace(c, c.keys[id], r.value.entity);
        r
      else r
  }

  lemma HomogeneousAppend(c: Collection, e: Entity)
    requires e.types == [Str(c.ctype.id)]
    ensures Homogeneous(c) ==> Homogeneous(c.(objects := c.objects + [e]))
  {
  }

  lemma HomogeneousReplace(c: Collection, at: nat, e: Entity)
    requires at < |c.objects|
    requires e.types == [Str(c.ctype.id)] || e.types == c.objects[at].types
    ensures Homogeneous(c) ==> Homogeneous(c.(objects := c.objects[at := e]))
  {
  }

  /** The branch of `add` for an id the collection does not know: build the
      entity with the collection as its host, append it, index it. */
  function AddNew(c: Collection, id: string, rec: Record): (r: Result<Added>)
    requires Valid(c) && id !in c.keys && Prepared(c, rec, id)
    ensures r.Ok? <==> NewEntity(rec, AsHost(c)).Ok?
    ensures r.Ok? ==> r.value.entity == NewEntity(rec, AsHost(c)).value
    ensures r.Ok? ==> Valid(r.value.collection) && r.value.collection.ctype == c.ctype
    ensures r.Ok? ==> r.value.entity.id == id && r.value.entity.types == [Str(c.ctype.id)]
    ensures r.Ok? ==>
      var c' := r.value.collection;
      && c'.objects == c.objects + [r.value.entity]
      && c'.keys == c.keys[id := |c.objects|]
      && c'.length == c.length + 1
      && c'.homes == c.homes + [Own]
  {
    assert HasStringId(rec);
    var e :- NewEntity(rec, AsHost(c));
    AppendIndexes(EntityIds(c.objects), c.keys, id);
    assert EntityIds(c.objects + [e]) == EntityIds(c.objects) + [id];
    Ok(Added(c.(objects := c.objects + [e], keys := c.keys[id := |c.objects|], length := |c.objects| + 1,
                homes := c.homes + [Own]), e))
  }

  /** The branch of `add` for a known member: its own `set`, through its own host, in place. */
  function AddExisting(c: Collection, id: string, rec: Record): (r: Result<Added>)
    requires Valid(c) && id in c.keys && Prepared(c, rec, id)
    ensures r.Ok? <==> Objects.Set(c.objects[c.keys[id]], rec, MemberHost(c, c.keys[id])).Ok?
    ensures r.Ok? ==> r.value.entity == Objects.Set(c.objects[c.keys[id]], rec, MemberHost(c, c.keys[id])).value
    ensures r.Ok? ==> Valid(r.value.collection) && r.value.collection.ctype == c.ctype
    ensures r.Ok? ==> r.value.entity.id == id
    ensures r.Ok? && c.ctype.id != "" ==> r.value.entity.types == [Str(c.ctype.id)]
    ensures r.Ok? && c.ctype.id == "" ==> r.value.entity.types == c.objects[c.keys[id]].types
    ensures r.Ok? ==>
      var c' := r.value.collection;
      && c'.keys == c.keys && c'.length == c.length && c'.homes == c.homes
      && c'.objects == c.objects[c.keys[id] := r.value.entity]
  {
    var at := c.keys[id];
    var e :- Objects.Set(c.objects[at], rec, MemberHost(c, at));
    assert EntityIds(c.objects[at := e]) == EntityIds(c.objects);
    Ok(Added(c.(objects := c.objects[at := e]), e))
  }

  /** Adding the same record twice keeps the member's position and the collection's length. */
  lemma AddAgainKeepsPosition(c: Collection, rec: Record, token: string)
    requires Valid(c) && IdIsString(rec) && Truthy(Field(rec, "_id")) && IsToken(token)
    requires Add(c, rec, token).Ok?
    requires Add(Add(c, rec, token).value.collection, rec, token).Ok?
    ensures var c1 := Add(c, rec, token).value.collection;
      var c2 := Add(c1, rec, token).value.collection;
      c2.keys == c1.keys && c2.length == c1.length && |c2.objects| == |c1.objects|
  {
    var c1 := Add(c, rec, token).value.collection;
    assert AddedId(c1, rec, token) == AddedId(c, rec, token);
  }

  /** One valid token per record, and every record's id, when given, a string. */
  predicate Supplied(recs: seq<Record>, tokens: seq<string>) {
    |tokens| == |recs| && forall i :: 0 <= i < |recs| ==> IdIsString(recs[i]) && IsToken(tokens[i])
  }

  lemma SuppliedTail(recs: seq<Record>, tokens: seq<string>)
    requires Supplied(recs, tokens) && |recs| > 0
    ensures IdIsString(recs[0]) && IsToken(tokens[0]) && Supplied(recs[1..], tokens[1..])
  {
    assert forall i :: 0 <= i < |recs| - 1 ==> recs[1..][i] == recs[i + 1] && tokens[1..][i] == tokens[i + 1];
  }

  function AddAll(c: Collection, recs: seq<Record>, tokens: seq<string>): (r: Result<Collection>)
    requires Valid(c)
    requires Supplied(recs, tokens)
    ensures |recs| == 0 ==> r == Ok(c)
    ensures r.Ok? ==> Valid(r.value) && r.value.ctype == c.ctype
    ensures r.Ok? && Homogeneous(c) ==> Homogeneous(r.value)
    ensures r.Ok? ==> |c.objects| <= |r.value.objects| <= |c.objects| + |recs|
    ensures r.Ok? ==> forall k :: k in c.keys ==> k in r.value.keys
    decreases |recs|
  {
    if |recs| == 0 then Ok(c)
    else
      SuppliedTail(recs, tokens);
      var added :- Add(c, recs[0], tokens[0]);
      var c1 := added.collection;
      assert Valid(c1) && c1.ctype == c.ctype && |c.objects| <= |c1.objects| <= |c.objects| + 1;
      assert forall k :: k in c.keys ==> k in c1.keys;
      assert Homogeneous(c) ==> Homogeneous(c1);
      AddAll(c1, recs[1..], tokens[1..])
  }

  lemma SuppliedSnoc(recs: seq<Record>, tokens: seq<string>, rec: Record, token: string)
    requires Supplied(recs, tokens) && IdIsString(rec) && IsToken(token)
    ensures Supplied(recs + [rec], tokens + [token])
  {
    var rs := recs + [rec];
    var ts := tokens + [token];
    assert forall i :: 0 <= i < |recs| ==> rs[i] == recs[i] && ts[i] == tokens[i];
  }

  /** Adding a single record is that record's `add`. */
  lemma AddAllOne(c: Collection, rec: Record, token: string)
    requires Valid(c) && IdIsString(rec) && IsToken(token)
    ensures Supplied([rec], [token])
    ensures var r := AddAll(c, [rec], [token]);
      && (r.Ok? <==> Add(c, rec, token).Ok?)
      && (r.Ok? ==> r.value == Add(c, rec, token).value.collection)
  {
    SuppliedTail([rec], [token]);
    var a := Add(c, rec, token);
    if a.Ok? {
      assert [rec][1..] == [];
      assert AddAll(c, [rec], [token]) == AddAll(a.value.collection, [], []);
    }
  }

  /** Adding one more record is adding the others, then `add` of that record:
      the whole fails exactly when some step's `add` fails, and otherwise ends in
      the collection the last `add` leaves. */
  lemma {:induction false} AddAllSnoc(c: Collection, recs: seq<Record>, tokens: seq<string>, rec: Record, token: string)
    requires Valid(c) && Supplied(recs, tokens) && IdIsString(rec) && IsToken(token)
    ensures Supplied(recs + [rec], tokens + [token])
    ensures var m := AddAll(c, recs, tokens);
      var r := AddAll(c, recs + [rec], tokens + [token]);
      && (r.Ok? <==> m.Ok? && Add(m.value, rec, token).Ok?)
      && (r.Ok? ==> r.value == Add(m.value, rec, token).value.collection)
    decreases |recs|
  {
    SuppliedSnoc(recs, tokens, rec, token);
    if |recs| == 0 {
      assert recs + [rec] == [rec] && tokens + [token] == [token];
      AddAllOne(c, rec, token);
    } else {
      var rs := recs + [rec];
      var ts := tokens + [token];
      SuppliedTail(recs, tokens);
      SuppliedTail(rs, ts);
      assert rs[0] == recs[0] && ts[0] == tokens[0];
      assert rs[1..] == recs[1..] + [rec] && ts[1..] == tokens[1..] + [token];
      var a := Add(c, recs[0], tokens[0]);
      if a.Ok? {
        AddAllSnoc(a.value.collection, recs[1..], tokens[1..], rec, token);
      }
    }
  }

  /** Every record that carries its own string id is indexed under it. */
  predicate GivenIdsIn(recs: seq<Record>, keys: map<string, nat>) {
    forall i :: 0 <= i < |recs| && Truthy(Field(recs[i], "_id")) && IdIsString(recs[i]) ==>
      recs[i].fields["_id"].atom.s in keys
  }

  lemma GivenIdsInCons(recs: seq<Record>, keys: map<string, nat>)
    requires |recs| > 0 && GivenIdsIn(recs[1..], keys)
    requires Truthy(Field(recs[0], "_id")) && IdIsString(recs[0]) ==> recs[0].fields["_id"].atom.s in keys
    ensures GivenIdsIn(recs, keys)
  {
    forall i | 1 <= i < |recs| && Truthy(Field(recs[i], "_id")) && IdIsString(recs[i])
      ensures recs[i].fields["_id"].atom.s in keys
    {
      assert recs[1..][i - 1] == recs[i];
    }
  }

  /** A successful `add` indexes the id it used. */
  lemma AddIndexesItsId(c: Collection, rec: Record, token: string)
    requires Valid(c) && IdIsString(rec) && IsToken(token)
    ensures Add(c, rec, token).Ok? ==> AddedId(c, rec, token) in Add(c, rec, token).value.collection.keys
  {
  }

  /** After a successful run of adds every record that carried its own id is a member under that id. */
  lemma {:induction false} AddAllKeepsGivenIds(c: Collection, recs: seq<Record>, tokens: seq<string>)
    requires Valid(c) && Supplied(recs, tokens)
    ensures AddAll(c, recs, tokens).Ok? ==> GivenIdsIn(recs, AddAll(c, recs, tokens).value.keys)
    decreases |recs|
  {
    if |recs| > 0 && AddAll(c, recs, tokens).Ok? {
      SuppliedTail(recs, tokens);
      var c1 := Add(c, recs[0], tokens[0]).value.collection;
      var r := AddAll(c1, recs[1..], tokens[1..]).value;
      assert AddAll(c, recs, tokens).value == r;
      AddAllKeepsGivenIds(c1, recs[1..], tokens[1..]);
      AddIndexesItsId(c, recs[0], tokens[0]);
      GivenIdsInCons(recs, r.keys);
    }
  }

  /** An empty collection of the given type. */
  function Empty(t: TypeNode): (c: Collection)
    ensures Valid(c) && Homogeneous(c) && c.objects == [] && c.ctype == t
  {
    Collection(t, [], map[], 0, [])
  }

  /** `new Data.Collection({type, objects})`: the type built from its record, then every object added in turn. */
  function New(typeRec: Record, recs: seq<Record>, tokens: seq<string>): (r: Result<Collection>)
    requires HasStringId(typeRec)
    requires Supplied(recs, tokens)
    ensures |recs| == 0 ==> r == Ok(Empty(MakeType(typeRec.fields["_id"].atom.s, typeRec)))
    ensures r.Ok? ==> Valid(r.value) && Homogeneous(r.value)
    ensures r.Ok? ==> r.value.ctype == MakeType(typeRec.fields["_id"].atom.s, typeRec)
    ensures r.Ok? ==> |r.value.objects| <= |recs|
  {
    AddAll(Empty(MakeType(typeRec.fields["_id"].atom.s, typeRec)), recs, tokens)
  }

  /** Building with one more object is building with the others, then `add` of it. */
  lemma NewSnoc(typeRec: Record, recs: seq<Record>, tokens: seq<string>, rec: Record, token: string)
    requires HasStringId(typeRec)
    requires Supplied(recs, tokens) && IdIsString(rec) && IsToken(token)
    ensures Supplied(recs + [rec], tokens + [token])
    ensures var m := New(typeRec, recs, tokens);
      var r := New(typeRec, recs + [rec], tokens + [token]);
      && (r.Ok? <==> m.Ok? && Add(m.value, rec, token).Ok?)
      && (r.Ok? ==> r.value == Add(m.value, rec, token).value.collection)
  {
    AddAllSnoc(Empty(MakeType(typeRec.fields["_id"].atom.s, typeRec)), recs, tokens, rec, token);
  }

  /** `find(qry)`: the query's `type` is overwritten with the collection's type id
      (`this.get` of it must be a type), then the members are scanned. The result
      is typed by the collection's own type and its members keep their hosts. */
  function Find(c: Collection, q: Selector): (r: Result<Collection>)
    ensures r.Ok? <==> HasTypePrefix(c.ctype.id)
    ensures r.Ok? ==> r.value.objects == Select(c.objects, q["type" := One(Str(c.ctype.id))])
    ensures r.Ok? ==> r.value.ctype == MakeType(c.ctype.id, TypeRecord(c.ctype))
    ensures r.Ok? ==> forall e :: e in r.value.objects ==> e in c.objects
    ensures r.Ok? && !ArrayLike(q) ==> forall e :: e in r.value.objects ==> Str(c.ctype.id) in e.types
    ensures r.Ok? ==> var pos := MatchPositions(c.objects, q["type" := One(Str(c.ctype.id))]);
      |r.value.homes| == |pos| && forall k :: 0 <= k < |pos| ==> r.value.homes[k] == Via(MemberHost(c, pos[k]))
    ensures r.Ok? && Valid(c) ==> Valid(r.value)
  {
    var typed := q["type" := One(Str(c.ctype.id))];
    assert Member(typed, "length") == Member(q, "length");
    FindTyped(c, typed)
  }

  /** The hosts of the members at the given positions, in that order. */
  function HostsAt(c: Collection, pos: seq<nat>): (hs: seq<Host>)
    ensures |hs| == |pos| && forall k :: 0 <= k < |pos| ==> hs[k] == MemberHost(c, pos[k])
  {
    seq(|pos|, k requires 0 <= k < |pos| => MemberHost(c, pos[k]))
  }

  /** The scan of `find` once the query's `type` is the collection's own. */
  function FindTyped(c: Collection, q: Selector): (r: Result<Collection>)
    requires "type" in q && q["type"] == One(Str(c.ctype.id))
    ensures r.Ok? <==> HasTypePrefix(c.ctype.id)
    ensures r.Ok? ==> r.value.objects == Select(c.objects, q)
    ensures r.Ok? ==> r.value.ctype == MakeType(c.ctype.id, TypeRecord(c.ctype))
    ensures r.Ok? ==> forall e :: e in r.value.objects ==> e in c.objects
    ensures r.Ok? && !ArrayLike(q) ==> forall e :: e in r.value.objects ==> Str(c.ctype.id) in e.types
    ensures r.Ok? ==> var pos := MatchPositions(c.objects, q);
      |r.value.homes| == |pos| && forall k :: 0 <= k < |pos| ==> r.value.homes[k] == Via(MemberHost(c, pos[k]))
    ensures r.Ok? && Valid(c) ==> Valid(r.value)
  {
    match Get(c, q["type"])
    case Ok(Some(TypeN(t))) => Ok(Found(c, q))
    case _ => Err(QueryTypeMissing)
  }

  /** The collection a successful `find` returns: the matching members, typed by
      the collection's own type, each keeping the host it had. */
  function Found(c: Collection, q: Selector): (r: Collection)
    requires "type" in q && q["type"] == One(Str(c.ctype.id))
    ensures r.objects == Select(c.objects, q)
    ensures r.ctype == MakeType(c.ctype.id, TypeRecord(c.ctype))
    ensures forall e :: e in r.objects ==> e in c.objects
    ensures !ArrayLike(q) ==> forall e :: e in r.objects ==> Str(c.ctype.id) in e.types
    ensures var pos := MatchPositions(c.objects, q);
      |r.homes| == |pos| && forall k :: 0 <= k < |pos| ==> r.homes[k] == Via(MemberHost(c, pos[k]))
    ensures Valid(c) ==> Valid(r)
  {
    var found := Select(c.objects, q);
    MatchPositionsCount(c.objects, q);
    SelectionOfValidIsDistinct(c, q);
    forall e | e in found && !ArrayLike(q)
      ensures Str(c.ctype.id) in e.types
    {
      MatchedHasType(e, q, c.ctype.id);
    }
    Create(c.ctype, found, HostsAt(c, MatchPositions(c.objects, q)))
  }

  /** A query naming type `id`, and walked by its keys, matches only entities whose chain holds `id`. */
  lemma MatchedHasType(e: Entity, q: Selector, id: string)
    requires "type" in q && q["type"] == One(Str(id)) && !ArrayLike(q)
    requires Matches(e, q)
    ensures Str(id) in e.types
  {
    assert KeyMatches(e, "type", Member(q, "type"));
  }

  /** Whatever type the caller's query names, `find` answers as if it named the collection's type. */
  lemma FindIgnoresCallerType(c: Collection, q: Selector, v: Value)
    ensures Find(c, q["type" := v]) == Find(c, q)
  {
    assert q["type" := v]["type" := One(Str(c.ctype.id))] == q["type" := One(Str(c.ctype.id))];
  }
}

=== FILE: graphs.dfy ===
/** `Data.Graph`: the store of every type and entity, keyed by id. */
module Graphs {

  import opened Results
  import opened Values
  import opened Schema
  import opened Objects
  import opened Index
  import opened Ids
  import opened Query
  import Collections

  /** `nodes` in insertion order, `keys` from id to position, and the `types` and
      `objects` partitions as positions into `nodes`: the source's arrays hold the
      very node objects of `nodes`, so an update in place shows through them. */
  datatype Graph = Graph(nodes: seq<Node>, keys: map<string, nat>, types: seq<nat>, objects: seq<nat>)

  function NodeIds(nodes: seq<Node>): (ids: seq<string>)
    ensures |ids| == |nodes| && forall i :: 0 <= i < |nodes| ==> ids[i] == NodeId(nodes[i])
  {
    seq(|nodes|, i requires 0 <= i < |nodes| => NodeId(nodes[i]))
  }

  /** The positions holding type nodes (`wantTypes`) or entities (otherwise), in increasing order. */
  function KindPositions(nodes: seq<Node>, wantTypes: bool): (pos: seq<nat>)
    ensures forall k :: 0 <= k < |pos| ==> pos[k] < |nodes| && nodes[pos[k]].TypeN? == wantTypes
    ensures forall k, l :: 0 <= k < l < |pos| ==> pos[k] < pos[l]
    ensures forall i :: 0 <= i < |nodes| ==> (nodes[i].TypeN? == wantTypes <==> i in pos)
    decreases |nodes|
  {
    if |nodes| == 0 then []
    else
      var n := |nodes| - 1;
      var init := nodes[..n];
      var pos0 := KindPositions(init, wantTypes);
      assert forall i :: 0 <= i < n ==> init[i] == nodes[i];
      pos0 + (if nodes[n].TypeN? == wantTypes then [n] else [])
  }

  /** The index agrees with the node list, and the partitions are exactly the type and entity positions. */
  predicate Valid(g: Graph) {
    && Indexes(NodeIds(g.nodes), g.keys)
    && g.types == KindPositions(g.nodes, true)
    && g.objects == KindPositions(g.nodes, false)
  }

  /** `new Data.Graph()` before any merge. */
  function Empty(): (g: Graph)
    ensures Valid(g) && |g.nodes| == 0
  {
    Graph([], map[], [], [])
  }

  /** Every node sits in exactly one partition. */
  lemma PartitionsAreDisjoint(g: Graph, i: int)
    requires Valid(g) && 0 <= i < |g.nodes|
    ensures (i in g.types) != (i in g.objects)
    ensures i in g.types <==> g.nodes[i].TypeN?
  {
  }

  function AsHost(g: Graph): Host {
    GraphHost(g.nodes, g.keys)
  }

  /** `get(id)`: `nodes[keys[id]]`. */
  function Get(g: Graph, id: string): (r: Option<Node>)
    ensures Valid(g) ==> (r.Some? <==> exists i :: 0 <= i < |g.nodes| && NodeId(g.nodes[i]) == id)
    ensures Valid(g) && r.Some? ==> NodeId(r.value) == id && r.value in g.nodes
  {
    GraphLookup(g.nodes, g.keys, id)
  }

  /** The entities of the graph, in insertion order: what a query scans. */
  function Entities(g: Graph): (es: seq<Entity>)
    requires Valid(g)
    ensures |es| == |g.objects|
    ensures forall k :: 0 <= k < |es| ==> g.nodes[g.objects[k]] == EntityN(es[k])
  {
    seq(|g.objects|, k requires 0 <= k < |g.objects| => g.nodes[g.objects[k]].e)
  }

  /** `_.isArray(node.type) ? node.type : [node.type]`. */
  function ChainOf(rec: Record): seq<Atom> {
    ToArray(Field(rec, "type"))
  }

  /** The record's most specific type is the type of types. */
  predicate IsTypeRecord(rec: Record) {
    var chain := ChainOf(rec);
    |chain| > 0 && chain[|chain| - 1] == Str(TypeOfTypes)
  }

  /** The id `set` uses: the record's own when truthy, else one synthesized from
      the last segment of the most specific type, which must be a string to split. */
  function ResolveId(rec: Record, token: string): (r: Result<string>)
    requires IdIsString(rec) && IsToken(token)
    ensures Truthy(Field(rec, "_id")) ==> r == Ok(rec.fields["_id"].atom.s)
    ensures r.Err? <==> !Truthy(Field(rec, "_id")) && !(|ChainOf(rec)| > 0 && ChainOf(rec)[|ChainOf(rec)| - 1].Str?)
    ensures !Truthy(Field(rec, "_id")) && r.Ok? ==>
      (|ChainOf(rec)| > 0 && ChainOf(rec)[|ChainOf(rec)| - 1].Str? &&
       ParseSynthesizedId(r.value) == Some((LastSegment(ChainOf(rec)[|ChainOf(rec)| - 1].s), token)))
  {
    var chain := ChainOf(rec);
    if Truthy(Field(rec, "_id")) then Ok(rec.fields["_id"].atom.s)
    else if |chain| > 0 && chain[|chain| - 1].Str? then
      SynthesizedIdRoundTrip(chain[|chain| - 1].s, token);
      Ok(SynthesizedId(chain[|chain| - 1].s, token))
    else Err(NoIdPrefix)
  }

  /** The record with its `_id` set to `id`: `node._id = ...` in `set`, `_.extend(n, {_id: key})` in `merge`. */
  function WithId(rec: Record, id: string): (r: Record)
    ensures HasStringId(r) && IdIsString(r) && "_id" in r.fields && r.fields["_id"] == One(Str(id))
  {
    rec.(fields := rec.fields["_id" := One(Str(id))])
  }

  lemma WithIdKeepsChain(rec: Record, id: string)
    ensures IsTypeRecord(WithId(rec, id)) == IsTypeRecord(rec)
  {
    assert Field(WithId(rec, id), "type") == Field(rec, "type");
  }

  datatype Placed = Placed(graph: Graph, node: Node)

  /** Register a node that is not yet in the graph: append it, index it, and file its position. */
  function Register(g: Graph, n: Node): (g': Graph)
    requires Valid(g) && NodeId(n) !in g.keys
    ensures Valid(g')
    ensures g'.nodes == g.nodes + [n] && g'.keys == g.keys[NodeId(n) := |g.nodes|]
    ensures n.TypeN? ==> g'.types == g.types + [|g.nodes|] && g'.objects == g.objects
    ensures n.EntityN? ==> g'.objects == g.objects + [|g.nodes|] && g'.types == g.types
  {
    var nodes' := g.nodes + [n];
    NodeIdsSnoc(g.nodes, n);
    AppendIndexes(NodeIds(g.nodes), g.keys, NodeId(n));
    KindPositionsSnoc(g.nodes, n, true);
    KindPositionsSnoc(g.nodes, n, false);
    Graph(nodes', g.keys[NodeId(n) := |g.nodes|],
          g.types + (if n.TypeN? then [|g.nodes|] else []),
          g.objects + (if n.TypeN? then [] else [|g.nodes|]))
  }

  lemma NodeIdsSnoc(nodes: seq<Node>, n: Node)
    ensures NodeIds(nodes + [n]) == NodeIds(nodes) + [NodeId(n)]
  {
  }

  /** Appending a node appends its position to the partition of its kind. */
  lemma KindPositionsSnoc(nodes: seq<Node>, n: Node, wantTypes: bool)
    ensures KindPositions(nodes + [n], wantTypes) ==
      KindPositions(nodes, wantTypes) + (if n.TypeN? == wantTypes then [|nodes|] else [])
  {
    assert (nodes + [n])[..|nodes|] == nodes;
  }

  /** Positions depend only on which nodes are types. */
  lemma {:induction false} SameKindsSamePositions(a: seq<Node>, b: seq<Node>, wantTypes: bool)
    requires |a| == |b|
    requires forall i :: 0 <= i < |a| ==> a[i].TypeN? == b[i].TypeN?
    ensures KindPositions(a, wantTypes) == KindPositions(b, wantTypes)
    decreases |a|
  {
    if |a| > 0 {
      var n := |a| - 1;
      SameKindsSamePositions(a[..n], b[..n], wantTypes);
    }
  }

  /** Replace the node at a position by one with the same id and kind. */
  function Replace(g: Graph, at: nat, n: Node): (g': Graph)
    requires Valid(g) && at < |g.nodes|
    requires NodeId(n) == NodeId(g.nodes[at]) && n.TypeN? == g.nodes[at].TypeN?
    ensures Valid(g')
    ensures g'.nodes == g.nodes[at := n]
    ensures g'.keys == g.keys && g'.types == g.types && g'.objects == g.objects
  {
    var nodes' := g.nodes[at := n];
    assert NodeIds(nodes') == NodeIds(g.nodes);
    SameKindsSamePositions(g.nodes, nodes', true);
    SameKindsSamePositions(g.nodes, nodes', false);
    g.(nodes := nodes')
  }

  /** Nodes keep their ids and positions: an update never moves a node. */
  predicate Stable(g: Graph, g': Graph) {
    && |g.nodes| <= |g'.nodes|
    && (forall id :: id in g.keys ==> id in g'.keys && g'.keys[id] == g.keys[id])
    && (forall i :: 0 <= i < |g.nodes| ==> NodeId(g'.nodes[i]) == NodeId(g.nodes[i]))
  }

  lemma RegisterIsStable(g: Graph, n: Node)
    requires Valid(g) && NodeId(n) !in g.keys
    ensures Stable(g, Register(g, n))
  {
    var g' := Register(g, n);
    assert forall i :: 0 <= i < |g.nodes| ==> g'.nodes[i] == g.nodes[i];
  }

  lemma ReplaceIsStable(g: Graph, at: nat, n: Node)
    requires Valid(g) && at < |g.nodes|
    requires NodeId(n) == NodeId(g.nodes[at]) && n.TypeN? == g.nodes[at].TypeN?
    ensures Stable(g, Replace(g, at, n))
  {
  }

  /** The record whose `_id` is `id`, as set hands it on. */
  predicate CarriesId(rec: Record, id: string) {
    "_id" in rec.fields && rec.fields["_id"] == One(Str(id))
  }

  /** The branch of `set` for an id the graph does not know. */
  function Insert(g: Graph, id: string, rec: Record): (r: Result<Placed>)
    requires Valid(g) && id !in g.keys && CarriesId(rec, id)
    ensures IsTypeRecord(rec) ==> r.Ok? && r.value.node == TypeN(MakeType(id, rec))
    ensures !IsTypeRecord(rec) ==> (r.Ok? <==> NewEntity(rec, AsHost(g)).Ok?)
    ensures !IsTypeRecord(rec) && r.Ok? ==> r.value.node == EntityN(NewEntity(rec, AsHost(g)).value)
    ensures r.Ok? ==> NodeId(r.value.node) == id && r.value.graph == Register(g, r.value.node)
    ensures r.Ok? ==> Valid(r.value.graph) && Stable(g, r.value.graph)
  {
    if IsTypeRecord(rec) then Ok(Place(g, TypeN(MakeType(id, rec))))
    else
      var built := NewEntity(rec, AsHost(g));
      if built.Err? then Err(built.fault)
      else
        assert built.value.id == id;
        Ok(Place(g, EntityN(built.value)))
  }

  /** A fresh node registered at the end of the graph. */
  function Place(g: Graph, n: Node): (r: Placed)
    requires Valid(g) && NodeId(n) !in g.keys
    ensures r.node == n && r.graph == Register(g, n)
    ensures Valid(r.graph) && Stable(g, r.graph)
  {
    RegisterIsStable(g, n);
    Placed(Register(g, n), n)
  }

  /** The branch of `set` for a known id: the node's own `set`, in place. */
  function Update(g: Graph, id: string, rec: Record): (r: Result<Placed>)
    requires Valid(g) && id in g.keys && CarriesId(rec, id)
    ensures r.Ok? ==> g.nodes[g.keys[id]].EntityN? && r.value.node.EntityN?
    ensures r.Ok? ==> NodeId(r.value.node) == id && r.value.graph == Replace(g, g.keys[id], r.value.node)
    ensures g.nodes[g.keys[id]].TypeN? ==> r == Err(TypeNotUpdatable)
    ensures g.nodes[g.keys[id]].EntityN? ==> (r.Ok? <==> Objects.Set(g.nodes[g.keys[id]].e, rec, AsHost(g)).Ok?)
    ensures r.Ok? ==> Objects.Set(g.nodes[g.keys[id]].e, rec, AsHost(g)) == Ok(r.value.node.e)
    ensures r.Ok? ==> Valid(r.value.graph) && Stable(g, r.value.graph)
  {
    match g.nodes[g.keys[id]]
    case TypeN(_) =>
      Err(TypeNotUpdatable)
    case EntityN(current) =>
      var e :- Objects.Set(current, rec, AsHost(g));
      ReplaceIsStable(g, g.keys[id], EntityN(e));
      Ok(Placed(Replace(g, g.keys[id], EntityN(e)), EntityN(e)))
  }

  /** `get(id)` finds a node exactly when the id is indexed. */
  lemma GetIsIndexed(g: Graph, id: string)
    requires Valid(g)
    ensures Get(g, id).Some? <==> id in g.keys
    ensures id in g.keys ==> Get(g, id) == Some(g.nodes[g.keys[id]])
  {
  }

  /** The upsert under a resolved id: insert when unknown, update in place otherwise. */
  function Upsert(g: Graph, id: string, rec: Record): (r: Result<Placed>)
    requires Valid(g) && CarriesId(rec, id)
    ensures r.Ok? ==> Valid(r.value.graph) && Stable(g, r.value.graph)
    ensures r.Ok? ==> NodeId(r.value.node) == id && id in r.value.graph.keys
    ensures r.Ok? && id !in g.keys ==>
      r.value.graph == Register(g, r.value.node) && (r.value.node.TypeN? <==> IsTypeRecord(rec))
    ensures id !in g.keys ==> (r.Ok? <==> IsTypeRecord(rec) || NewEntity(rec, AsHost(g)).Ok?)
    ensures id !in g.keys && r.Ok? ==>
      if IsTypeRecord(rec) then r.value.node == TypeN(MakeType(id, rec))
      else r.value.node.EntityN? && NewEntity(rec, AsHost(g)) == Ok(r.value.node.e)
    ensures id in g.keys ==>
      (r.Ok? <==> g.nodes[g.keys[id]].EntityN? && Objects.Set(g.nodes[g.keys[id]].e, rec, AsHost(g)).Ok?)
  {
    if id !in g.keys then Insert(g, id, rec) else Update(g, id, rec)
  }

  /** `set(node)`: an upsert. An unknown id creates a Data.Type (when the most
      specific type is the type of types) or an entity hosted by this graph; a
      known entity is updated in place; a known type cannot be updated. */
  function Set(g: Graph, rec: Record, token: string): (r: Result<Placed>)
    requires Valid(g) && IdIsString(rec) && IsToken(token)
    ensures r.Ok? ==> Valid(r.value.graph) && Stable(g, r.value.graph)
    ensures r.Ok? ==> ResolveId(rec, token) == Ok(NodeId(r.value.node))
    ensures r.Ok? ==> NodeId(r.value.node) in r.value.graph.keys
    ensures r.Ok? && NodeId(r.value.node) !in g.keys ==>
      r.value.graph == Register(g, r.value.node) && (r.value.node.TypeN? <==> IsTypeRecord(rec))
    ensures r.Ok? && NodeId(r.value.node) !in g.keys ==>
      var id := NodeId(r.value.node);
      if IsTypeRecord(rec) then r.value.node == TypeN(MakeType(id, WithId(rec, id)))
      else r.value.node.EntityN? && NewEntity(WithId(rec, id), AsHost(g)) == Ok(r.value.node.e)
    ensures r.Ok? <==> (
      && ResolveId(rec, token).Ok?
      && var id := ResolveId(rec, token).value;
         if id in g.keys then g.nodes[g.keys[id]].EntityN? && Objects.Set(g.nodes[g.keys[id]].e, WithId(rec, id), AsHost(g)).Ok?
         else IsTypeRecord(rec) || NewEntity(WithId(rec, id), AsHost(g)).Ok?)
  {
    var id :- ResolveId(rec, token);
    WithIdKeepsChain(rec, id);
    Upsert(g, id, WithId(rec, id))
  }

  /** `set` on an id the graph does not know appends exactly one node at the end,
      indexes it there, files it as a type iff its most specific type is the type
      of types (and as an entity otherwise), and leaves every earlier node alone. */
  lemma SetFresh(g: Graph, rec: Record, token: string)
    requires Valid(g) && IdIsString(rec) && IsToken(token)
    ensures Set(g, rec, token).Ok? && NodeId(Set(g, rec, token).value.node) !in g.keys ==>
      var p := Set(g, rec, token).value;
      var id := NodeId(p.node);
      && p.graph.nodes == g.nodes + [p.node]
      && p.graph.keys == g.keys[id := |g.nodes|]
      && Get(p.graph, id) == Some(p.node)
      && (p.node.TypeN? <==> IsTypeRecord(rec))
      && (IsTypeRecord(rec) ==> p.graph.types == g.types + [|g.nodes|] && p.graph.objects == g.objects)
      && (!IsTypeRecord(rec) ==> p.graph.objects == g.objects + [|g.nodes|] && p.graph.types == g.types)
  {
    if Set(g, rec, token).Ok? {
      var p := Set(g, rec, token).value;
      GetIsIndexed(p.graph, NodeId(p.node));
    }
  }

  /** `set` on a known id moves nothing: the index and both partitions are
      unchanged, and only the node at that id's position is replaced, by the
      entity's own `set` of the record. A known type cannot be updated. */
  lemma SetExisting(g: Graph, rec: Record, token: string)
    requires Valid(g) && IdIsString(rec) && IsToken(token)
    ensures ResolveId(rec, token).Ok? && ResolveId(rec, token).value in g.keys ==>
      var id := ResolveId(rec, token).value;
      g.nodes[g.keys[id]].TypeN? ==> Set(g, rec, token) == Err(TypeNotUpdatable)
    ensures ResolveId(rec, token).Ok? && ResolveId(rec, token).value in g.keys ==>
      var id := ResolveId(rec, token).value;
      var at := g.keys[id];
      Set(g, rec, token).Ok? ==>
        var p := Set(g, rec, token).value;
        && g.nodes[at].EntityN?
        && p.graph.keys == g.keys && p.graph.types == g.types && p.graph.objects == g.objects
        && p.graph.nodes == g.nodes[at := p.node]
        && Objects.Set(g.nodes[at].e, WithId(rec, id), AsHost(g)) == Ok(p.node.e)
  {
    if ResolveId(rec, token).Ok? && ResolveId(rec, token).value in g.keys {
      var id := ResolveId(rec, token).value;
      assert Set(g, rec, token) == Update(g, id, WithId(rec, id));
    }
  }

  predicate Tokens(tokens: seq<string>) {
    forall i :: 0 <= i < |tokens| ==> IsToken(tokens[i])
  }

  lemma TokensTail(tokens: seq<string>)
    requires |tokens| > 0 && Tokens(tokens)
    ensures IsToken(tokens[0]) && Tokens(tokens[1..])
  {
    assert forall i :: 0 <= i < |tokens| - 1 ==> tokens[1..][i] == tokens[i + 1];
  }

  /** `merge(nodes)`: `set` of every record under its key, in the object's key order. */
  function Merge(g: Graph, entries: seq<(string, Record)>, tokens: seq<string>): (r: Result<Graph>)
    requires Valid(g) && |tokens| == |entries| && Tokens(tokens)
    ensures |entries| == 0 ==> r == Ok(g)
    ensures r.Ok? ==> Valid(r.value) && Stable(g, r.value)
    decreases |entries|
  {
    if |entries| == 0 then Ok(g)
    else
      var rec := WithId(entries[0].1, entries[0].0);
      TokensTail(tokens);
      var placed :- Set(g, rec, tokens[0]);
      Merge(placed.graph, entries[1..], tokens[1..])
  }

  /** Merging one more entry is merging the others, then `set` of that entry
      under its key: the merge fails exactly when some step's `set` fails, and
      otherwise ends in the graph the last `set` leaves. */
  lemma {:induction false} MergeSnoc(g: Graph, entries: seq<(string, Record)>, tokens: seq<string>,
                                     last: (string, Record), token: string)
    requires Valid(g) && |tokens| == |entries| && Tokens(tokens) && IsToken(token)
    ensures var m := Merge(g, entries, tokens);
      var r := Merge(g, entries + [last], tokens + [token]);
      && (r.Ok? <==> m.Ok? && Set(m.value, WithId(last.1, last.0), token).Ok?)
      && (r.Ok? ==> r.value == Set(m.value, WithId(last.1, last.0), token).value.graph)
    decreases |entries|
  {
    var es := entries + [last];
    var ts := tokens + [token];
    if |entries| == 0 {
      assert es == [last] && ts == [token];
      var s := Set(g, WithId(last.1, last.0), token);
      if s.Ok? {
        assert Merge(g, es, ts) == Merge(s.value.graph, es[1..], ts[1..]);
        assert es[1..] == [];
      }
    } else {
      TokensTail(tokens);
      assert es[0] == entries[0] && ts[0] == tokens[0];
      assert es[1..] == entries[1..] + [last] && ts[1..] == tokens[1..] + [token];
      TokensTail(ts);
      var s := Set(g, WithId(entries[0].1, entries[0].0), tokens[0]);
      if s.Ok? {
        MergeSnoc(s.value.graph, entries[1..], tokens[1..], last, token);
      }
    }
  }

  /** A record `set` under a non-empty key is indexed under that key. */
  lemma SetIndexesKey(g: Graph, rec: Record, key: string, token: string)
    requires Valid(g) && key != "" && IsToken(token)
    ensures Set(g, WithId(rec, key), token).Ok? ==> key in Set(g, WithId(rec, key), token).value.graph.keys
  {
    assert ResolveId(WithId(rec, key), token) == Ok(key);
  }

  /** Every non-empty key of the entries is indexed. */
  predicate KeysIndexed(entries: seq<(string, Record)>, keys: map<string, nat>) {
    forall k :: 0 <= k < |entries| && entries[k].0 != "" ==> entries[k].0 in keys
  }

  lemma KeysIndexedCons(entries: seq<(string, Record)>, keys: map<string, nat>)
    requires |entries| > 0 && KeysIndexed(entries[1..], keys)
    requires entries[0].0 != "" ==> entries[0].0 in keys
    ensures KeysIndexed(entries, keys)
  {
    forall k | 1 <= k < |entries| && entries[k].0 != "" ensures entries[k].0 in keys {
      assert entries[1..][k - 1] == entries[k];
    }
  }

  /** After a successful merge every non-empty key names a node of the graph:
      an earlier key is never unindexed by a later `set`. */
  lemma {:induction false} MergeIndexesEveryKey(g: Graph, entries: seq<(string, Record)>, tokens: seq<string>)
    requires Valid(g) && |tokens| == |entries| && Tokens(tokens)
    ensures Merge(g, entries, tokens).Ok? ==> KeysIndexed(entries, Merge(g, entries, tokens).value.keys)
    decreases |entries|
  {
    if |entries| > 0 && Merge(g, entries, tokens).Ok? {
      var rec := WithId(entries[0].1, entries[0].0);
      TokensTail(tokens);
      var g1 := Set(g, rec, tokens[0]).value.graph;
      var r := Merge(g1, entries[1..], tokens[1..]).value;
      assert Merge(g, entries, tokens).value == r;
      MergeIndexesEveryKey(g1, entries[1..], tokens[1..]);
      if entries[0].0 != "" {
        SetIndexesKey(g, entries[0].1, entries[0].0, tokens[0]);
      }
      KeysIndexedCons(entries, r.keys);
    }
  }

  /** Setting the same record twice keeps its node where the first `set` put it,
      and leaves the index and both partitions as they were. */
  lemma SetTwiceKeepsPosition(g: Graph, rec: Record, token: string)
    requires Valid(g) && IdIsString(rec) && Truthy(Field(rec, "_id")) && IsToken(token)
    ensures Set(g, rec, token).Ok? && Set(Set(g, rec, token).value.graph, rec, token).Ok? ==>
      var g1 := Set(g, rec, token).value.graph;
      var g2 := Set(g1, rec, token).value.graph;
      && g2.keys == g1.keys && g2.types == g1.types && g2.objects == g1.objects
      && |g2.nodes| == |g1.nodes|
  {
    if Set(g, rec, token).Ok? {
      var g1 := Set(g, rec, token).value.graph;
      assert ResolveId(rec, token).value in g1.keys;
      SetExisting(g1, rec, token);
    }
  }

  /** The node with `_deleted` set. */
  function MarkDeleted(n: Node): (m: Node)
    ensures NodeId(m) == NodeId(n) && m.TypeN? == n.TypeN?
  {
    match n
    case TypeN(t) => TypeN(t.(deleted := true))
    case EntityN(e) => EntityN(e.(deleted := true))
  }

  /** `del(id)`: flag the node as deleted in place; an unknown id is a no-op. */
  function Del(g: Graph, id: string): (g': Graph)
    requires Valid(g)
    ensures Valid(g')
    ensures g'.keys == g.keys && g'.types == g.types && g'.objects == g.objects
    ensures id !in g.keys ==> g' == g
    ensures id in g.keys ==> g'.nodes == g.nodes[g.keys[id] := MarkDeleted(g.nodes[g.keys[id]])]
  {
    GetIsIndexed(g, id);
    match Get(g, id)
    case None => g
    case Some(n) => Replace(g, g.keys[id], MarkDeleted(n))
  }

  /** A deleted node is still found by `get`, with its flag set and nothing else changed. */
  lemma DeletedStaysResolvable(g: Graph, id: string)
    requires Valid(g) && id in g.keys
    ensures Get(Del(g, id), id) == Some(MarkDeleted(g.nodes[g.keys[id]]))
  {
  }

  /** The query's `type` member, undefined when absent. */
  function QueryType(q: Selector): Value {
    Member(q, "type")
  }

  /** The entities of a valid graph have distinct ids. */
  lemma EntitiesHaveDistinctIds(g: Graph)
    requires Valid(g)
    ensures Distinct(EntityIds(Entities(g)))
  {
    IndexedIdsAreDistinct(NodeIds(g.nodes), g.keys);
    var es := Entities(g);
    forall i, j | 0 <= i < j < |es|
      ensures es[i].id != es[j].id
    {
      assert NodeId(g.nodes[g.objects[i]]) == es[i].id;
      assert NodeId(g.nodes[g.objects[j]]) == es[j].id;
    }
  }

  /** `find(qry)`: `get(qry.type)`, under the key JavaScript makes of the
      query's `type`, must be a type. The result boxes every matching entity in
      insertion order, with an index of its own; it is typed by that type,
      rebuilt, and its members keep the graph as their host. */
  function Find(g: Graph, q: Selector): (r: Result<Collections.Collection>)
    requires Valid(g)
    ensures r.Ok? <==> Get(g, KeyString(QueryType(q))).Some? && Get(g, KeyString(QueryType(q))).value.TypeN?
    ensures r.Ok? ==> var t := Get(g, KeyString(QueryType(q))).value.t;
      r.value.ctype == MakeType(t.id, TypeRecord(t))
    ensures r.Ok? ==> r.value.objects == Select(Entities(g), q) && Collections.Valid(r.value)
    ensures r.Ok? ==> forall k :: 0 <= k < |r.value.homes| ==> r.value.homes[k] == Collections.Via(AsHost(g))
  {
    match HostGet(AsHost(g), QueryType(q))
    case Ok(Some(TypeN(t))) => Ok(Found(g, q, t))
    case _ => Err(QueryTypeMissing)
  }

  /** The collection a successful `find` returns, typed by `t`. */
  function Found(g: Graph, q: Selector, t: TypeNode): (c: Collections.Collection)
    requires Valid(g)
    ensures c.ctype == MakeType(t.id, TypeRecord(t))
    ensures c.objects == Select(Entities(g), q) && Collections.Valid(c)
    ensures forall k :: 0 <= k < |c.homes| ==> c.homes[k] == Collections.Via(AsHost(g))
  {
    var found := Select(Entities(g), q);
    EntitiesHaveDistinctIds(g);
    SelectKeepsDistinctIds(Entities(g), q);
    Collections.Create(t, found, seq(|found|, _ => AsHost(g)))
  }

  /** The members of a query result resolve through the graph, as the source's
      result holds the graph's own objects: an `add` that updates one of them
      reads its types from the graph. */
  lemma FoundMembersUseGraph(g: Graph, q: Selector)
    requires Valid(g)
    ensures Find(g, q).Ok? ==>
      forall i :: 0 <= i < |Find(g, q).value.objects| ==> Collections.MemberHost(Find(g, q).value, i) == AsHost(g)
  {
  }

  /** A query type given as a one-element list finds what its member finds. */
  lemma FindSingletonTypeList(g: Graph, q: Selector, a: Atom)
    requires Valid(g) && !(a.Null? || a.Undefined?)
    ensures Find(g, q["type" := Many([a])]) == Find(g, q["type" := One(a)])
  {
    var q1, q2 := q["type" := Many([a])], q["type" := One(a)];
    assert QueryType(q1) == Many([a]) && QueryType(q2) == One(a);
    GraphGetOfSingletonList(g.nodes, g.keys, a);
    SameArraysSameMatches(q1, q2);
    SelectSameMatches(Entities(g), q1, q2);
  }

  /** `del` flips the flag of one entity in the scan and keeps every other entry. */
  lemma EntitiesAfterDel(g: Graph, id: string, e: Entity) returns (k: nat)
    requires Valid(g) && id in g.keys && g.nodes[g.keys[id]] == EntityN(e)
    ensures k < |Entities(g)| && Entities(Del(g, id))[k] == e.(deleted := true)
  {
    var at := g.keys[id];
    assert at in g.objects;
    k :| 0 <= k < |g.objects| && g.objects[k] == at;
  }

  /** The deleted flag is not something a query can select on. */
  lemma MatchesIgnoresDeleted(e: Entity, q: Selector)
    ensures Matches(e.(deleted := true), q) == Matches(e, q)
  {
    forall key | key in q ensures Actual(e.(deleted := true), key) == Actual(e, key) {}
  }

  /** `del` keeps every node's kind, so whatever `find` could use as a type it still can. */
  lemma DelKeepsKinds(g: Graph, id: string, tid: string)
    requires Valid(g)
    ensures Get(Del(g, id), tid).Some? == Get(g, tid).Some?
    ensures Get(g, tid).Some? ==> Get(Del(g, id), tid).value.TypeN? == Get(g, tid).value.TypeN?
  {
    GetIsIndexed(g, tid);
    GetIsIndexed(Del(g, id), tid);
  }

  /** Deleting does not hide: a matching entity stays in query results after `del`, flagged. */
  lemma DeletedStillFound(g: Graph, id: string, q: Selector, e: Entity)
    requires Valid(g) && id in g.keys && g.nodes[g.keys[id]] == EntityN(e)
    ensures Find(g, q).Ok? ==> Find(Del(g, id), q).Ok?
    ensures Find(g, q).Ok? && Matches(e, q) ==> e.(deleted := true) in Find(Del(g, id), q).value.objects
  {
    if Find(g, q).Ok? {
      var k := EntitiesAfterDel(g, id, e);
      MatchesIgnoresDeleted(e, q);
      SelectIsComplete(Entities(Del(g, id)), q, e.(deleted := true));
      DelKeepsKinds(g, id, KeyString(QueryType(q)));
    }
  }
}

=== FILE: ids.dfy ===
/** Identifier synthesis (`Data.uuid` and the prefix its callers build).

    The random part of an id is a parameter: a 32-character token over the
    alphabet `0-9a-f`, as `chars[0 | Math.random() * 16]` produces. */
module Ids {

  import opened Results

  const HexDigits: string := "0123456789abcdef"
  const TokenLength: nat := 32

  predicate IsToken(t: string) {
    |t| == TokenLength && forall i :: 0 <= i < |t| ==> t[i] in HexDigits
  }

  /** `_.last(s.split('/'))`: the text after the last '/' of `s`, or all of `s` when it has none. */
  function LastSegment(s: string): (r: string)
    ensures '/' !in r
    ensures |r| <= |s| && r == s[|s| - |r|..]
    ensures |r| < |s| ==> s[|s| - |r| - 1] == '/'
    decreases |s|
  {
    if |s| == 0 then ""
    else if s[|s| - 1] == '/' then ""
    else
      var r0 := LastSegment(s[..|s| - 1]);
      SuffixStep(s, r0);
      r0 + [s[|s| - 1]]
  }

  /** Extending a suffix of `s` minus its last character by that character gives a suffix of `s`. */
  lemma SuffixStep(s: string, r0: string)
    requires |s| > 0 && |r0| <= |s| - 1 && r0 == s[..|s| - 1][|s| - 1 - |r0|..]
    ensures r0 + [s[|s| - 1]] == s[|s| - |r0| - 1..]
    ensures |r0| < |s| - 1 ==> s[..|s| - 1][|s| - 1 - |r0| - 1] == s[|s| - |r0| - 2]
  {
    var n := |s| - 1;
    assert s[..n][n - |r0|..] == s[n - |r0|..n];
    assert s[n - |r0|..] == s[n - |r0|..n] + [s[n]];
  }

  /** `Data.uuid(prefix)`: the prefix (when not empty) followed by the token. */
  function Uuid(prefix: string, token: string): (r: string)
    requires IsToken(token)
    ensures |r| == |prefix| + TokenLength
    ensures r[..|prefix|] == prefix && IsToken(r[|prefix|..])
  {
    (if prefix != "" then prefix else "") + token
  }

  /** The id Graph.set and Collection.add give a node that has none:
      `Data.uuid('/' + <last segment of the type id> + '/')`. */
  function SynthesizedId(typeId: string, token: string): (r: string)
    requires IsToken(token)
  {
    Uuid("/" + LastSegment(typeId) + "/", token)
  }

  /** Position of the first '/' in `s`, or `|s|` when there is none. */
  function FirstSlash(s: string): (r: nat)
    ensures r <= |s|
    ensures r < |s| ==> s[r] == '/'
    ensures '/' !in s[..r]
    decreases |s|
  {
    if |s| == 0 then 0
    else if s[0] == '/' then 0
    else 1 + FirstSlash(s[1..])
  }

  /** Splits a synthesized id back into its type segment and its token. */
  function ParseSynthesizedId(id: string): Option<(string, string)> {
    if |id| == 0 || id[0] != '/' then None
    else
      var j := 1 + FirstSlash(id[1..]);
      if j >= |id| then None
      else if IsToken(id[j + 1..]) then Some((id[1..j], id[j + 1..]))
      else None
  }

  lemma FirstSlashAfterSegment(seg: string, rest: string)
    requires '/' !in seg
    ensures FirstSlash(seg + "/" + rest) == |seg|
    decreases |seg|
  {
    if |seg| > 0 {
      assert (seg + "/" + rest)[1..] == seg[1..] + "/" + rest;
      FirstSlashAfterSegment(seg[1..], rest);
    }
  }

  /** `/<seg>/<token>` splits back into `seg` and `token` when `seg` has no '/'. */
  lemma ParseJoined(seg: string, token: string)
    requires '/' !in seg && IsToken(token)
    ensures ParseSynthesizedId("/" + seg + "/" + token) == Some((seg, token))
  {
    var id := "/" + seg + "/" + token;
    assert id[1..] == seg + "/" + token;
    FirstSlashAfterSegment(seg, token);
    var j := 1 + |seg|;
    assert id[1..j] == seg;
    assert id[j + 1..] == token;
  }

  /** A synthesized id determines the type segment and the token it was made from. */
  lemma {:induction false} SynthesizedIdRoundTrip(typeId: string, token: string)
    requires IsToken(token)
    ensures ParseSynthesizedId(SynthesizedId(typeId, token)) == Some((LastSegment(typeId), token))
  {
    var seg := LastSegment(typeId);
    assert SynthesizedId(typeId, token) == "/" + seg + "/" + token;
    ParseJoined(seg, token);
  }
}

=== FILE: index.dfy ===
/** Identifier-to-position indexes, the `keys` objects of Data.Graph and
    Data.Collection. */
module Index {

  import opened Results

  /** `keys` and the id list agree both ways: every indexed id sits at its
      recorded position, and every position's id is indexed there. */
  predicate Indexes(ids: seq<string>, keys: map<string, nat>) {
    && (forall k :: k in keys ==> keys[k] < |ids| && ids[keys[k]] == k)
    && (forall i :: 0 <= i < |ids| ==> ids[i] in keys && keys[ids[i]] == i)
  }

  predicate Distinct(ids: seq<string>) {
    forall i, j :: 0 <= i < j < |ids| ==> ids[i] != ids[j]
  }

  function Lookup(keys: map<string, nat>, k: string): Option<nat> {
    if k in keys then Some(keys[k]) else None
  }

  /** An index can only exist over distinct ids. */
  lemma IndexedIdsAreDistinct(ids: seq<string>, keys: map<string, nat>)
    requires Indexes(ids, keys)
    ensures Distinct(ids)
  {
    forall i, j | 0 <= i < j < |ids|
      ensures ids[i] != ids[j]
    {
      assert keys[ids[i]] == i && keys[ids[j]] == j;
    }
  }

  /** `_.each(objects, function(o, i) { keys[o._id] = i; })` starting from `{}`:
      each id maps to the position of its last occurrence. */
  function Build(ids: seq<string>): (keys: map<string, nat>)
    ensures forall i :: 0 <= i < |ids| ==> ids[i] in keys
    ensures forall k :: k in keys ==> keys[k] < |ids| && ids[keys[k]] == k
    ensures forall k, j :: k in keys && keys[k] < j < |ids| ==> ids[j] != k
    decreases |ids|
  {
    if |ids| == 0 then map[]
    else
      var n := |ids| - 1;
      var prev := Build(ids[..n]);
      BuildStep(ids, ids[..n], prev);
      prev[ids[n] := n]
  }

  /** One step of the fold: indexing the last id over the map built from the others. */
  lemma BuildStep(ids: seq<string>, init: seq<string>, prev: map<string, nat>)
    requires |ids| > 0 && init == ids[..|ids| - 1]
    requires forall i :: 0 <= i < |init| ==> init[i] in prev
    requires forall k :: k in prev ==> prev[k] < |init| && init[prev[k]] == k
    requires forall k, j :: k in prev && prev[k] < j < |init| ==> init[j] != k
    ensures var keys := prev[ids[|ids| - 1] := |ids| - 1];
      && (forall i :: 0 <= i < |ids| ==> ids[i] in keys)
      && (forall k :: k in keys ==> keys[k] < |ids| && ids[keys[k]] == k)
      && (forall k, j :: k in keys && keys[k] < j < |ids| ==> ids[j] != k)
  {
    assert forall i :: 0 <= i < |init| ==> init[i] == ids[i];
  }

  /** Over distinct ids the built map is an index. */
  lemma {:induction false} BuildIndexesDistinct(ids: seq<string>)
    requires Distinct(ids)
    ensures Indexes(ids, Build(ids))
  {
    var keys := Build(ids);
    forall i | 0 <= i < |ids|
      ensures ids[i] in keys && keys[ids[i]] == i
    {
      assert ids[i] in keys;
    }
  }

  /** Appending a new id at the end and indexing it keeps the index exact. */
  lemma AppendIndexes(ids: seq<string>, keys: map<string, nat>, id: string)
    requires Indexes(ids, keys)
    requires id !in keys
    ensures Indexes(ids + [id], keys[id := |ids|])
  {
  }
}

=== FILE: objects.dfy ===
/** `Data.Object`: typed entities, the hosts they resolve through, and the
    property-resolution rules (`property`, `get`, `set`, `type`). */
module Objects {

  import opened Results
  import opened Values
  import opened Schema

  /** An entity: its id, type chain (general to specific), stored values and deletion flag. */
  datatype Entity = Entity(id: string, types: seq<Atom>, properties: map<string, Value>, deleted: bool)

  /** A node of the graph: a Data.Type or a Data.Object. */
  datatype Node = TypeN(t: TypeNode) | EntityN(e: Entity)

  function EntityIds(es: seq<Entity>): (ids: seq<string>)
    ensures |ids| == |es| && forall i :: 0 <= i < |es| ==> ids[i] == es[i].id
  {
    seq(|es|, i requires 0 <= i < |es| => es[i].id)
  }

  function NodeId(n: Node): string {
    match n
    case TypeN(t) => t.id
    case EntityN(e) => e.id
  }

  /** The store an entity consults: the parts of a Data.Graph or a Data.Collection that `get` reads. */
  datatype Host =
    | GraphHost(nodes: seq<Node>, keys: map<string, nat>)
    | CollectionHost(ctype: TypeNode, objects: seq<Entity>, keys: map<string, nat>)

  /** `Data.Graph.get(id)`: `nodes[keys[id]]`. */
  function GraphLookup(nodes: seq<Node>, keys: map<string, nat>, id: string): Option<Node> {
    if id in keys && keys[id] < |nodes| then Some(nodes[keys[id]]) else None
  }

  /** `Data.Collection.get(id)`: the collection's type for any id under `/type/`, else `objects[keys[id]]`. */
  function CollectionLookup(ctype: TypeNode, objects: seq<Entity>, keys: map<string, nat>, id: string): Option<Node> {
    if HasTypePrefix(id) then Some(TypeN(ctype))
    else if id in keys && keys[id] < |objects| then Some(EntityN(objects[keys[id]]))
    else None
  }

  /** `host.get(v)`. A Graph reads `keys[v]`, under the key JavaScript makes of
      `v`; a Collection throws unless `v` is a string, since only strings have `match`. */
  function HostGet(h: Host, v: Value): (r: Result<Option<Node>>)
    ensures r.Err? <==> h.CollectionHost? && !(v.One? && v.atom.Str?)
    ensures h.GraphHost? ==> (r.value.Some? <==> KeyString(v) in h.keys && h.keys[KeyString(v)] < |h.nodes|)
    ensures h.GraphHost? && r.value.Some? ==> r.value.value == h.nodes[h.keys[KeyString(v)]]
  {
    match h
    case GraphHost(nodes, keys) =>
      Ok(GraphLookup(nodes, keys, KeyString(v)))
    case CollectionHost(ctype, objects, keys) =>
      if v.One? && v.atom.Str? then Ok(CollectionLookup(ctype, objects, keys, v.atom.s)) else Err(NonStringId)
  }

  /** A Graph finds a one-element list's member under the list too, as with a
      unique reference stored as `["id"]` or a query type given as `["/type/t"]`. */
  lemma GraphGetOfSingletonList(nodes: seq<Node>, keys: map<string, nat>, a: Atom)
    requires !(a.Null? || a.Undefined?)
    ensures HostGet(GraphHost(nodes, keys), Many([a])) == HostGet(GraphHost(nodes, keys), One(a))
  {
    SingletonKey(a);
  }

  /** `host.get(t).properties` for a chain entry, when that is a declaration table. */
  function DeclarationsAt(h: Host, t: Atom): Result<map<string, PropDecl>> {
    match HostGet(h, One(t))
    case Ok(Some(TypeN(ty))) =>
      if ty.properties.Some? then Ok(ty.properties.value) else Err(BrokenTypeChain)
    case _ => Err(BrokenTypeChain)
  }

  /** The declaration of `key` reached by walking `chain` from its last (most
      specific) entry back to its first; `None` when no entry declares it. */
  function Property(chain: seq<Atom>, key: string, h: Host): Result<Option<PropDecl>>
    decreases |chain|
  {
    if |chain| == 0 then Ok(None)
    else
      var decls :- DeclarationsAt(h, chain[|chain| - 1]);
      if key in decls then Ok(Some(decls[key])) else Property(chain[..|chain| - 1], key, h)
  }

  /** Chain entry `t` can be consulted and declares `key` as `d`. */
  predicate DeclaresAs(h: Host, t: Atom, key: string, d: PropDecl) {
    DeclarationsAt(h, t).Ok? && key in DeclarationsAt(h, t).value && DeclarationsAt(h, t).value[key] == d
  }

  /** Chain entry `t` can be consulted and does not declare `key`. */
  predicate PassesOver(h: Host, t: Atom, key: string) {
    DeclarationsAt(h, t).Ok? && key !in DeclarationsAt(h, t).value
  }

  /** Entry `i` of the chain declares `key` as `d`, and every later entry can be consulted without declaring it. */
  predicate WinsAt(chain: seq<Atom>, i: int, key: string, h: Host, d: PropDecl)
    requires 0 <= i < |chain|
  {
    DeclaresAs(h, chain[i], key, d) && forall j :: i < j < |chain| ==> PassesOver(h, chain[j], key)
  }

  lemma WinsAtPrefix(chain: seq<Atom>, i: int, key: string, h: Host, d: PropDecl)
    requires 0 <= i < |chain| - 1
    ensures WinsAt(chain, i, key, h, d) <==>
      WinsAt(chain[..|chain| - 1], i, key, h, d) && PassesOver(h, chain[|chain| - 1], key)
  {
    var init := chain[..|chain| - 1];
    assert forall j :: 0 <= j < |init| ==> init[j] == chain[j];
  }

  /** A declaration found by resolution is the one of the last entry declaring the key. */
  lemma {:induction false} PropertyFindsWinner(chain: seq<Atom>, key: string, h: Host, d: PropDecl)
    requires Property(chain, key, h) == Ok(Some(d))
    ensures exists i :: 0 <= i < |chain| && WinsAt(chain, i, key, h, d)
    decreases |chain|
  {
    var n := |chain| - 1;
    if DeclaresAs(h, chain[n], key, d) {
      assert WinsAt(chain, n, key, h, d);
    } else {
      PropertyFindsWinner(chain[..n], key, h, d);
      var i :| 0 <= i < n && WinsAt(chain[..n], i, key, h, d);
      WinsAtPrefix(chain, i, key, h, d);
    }
  }

  /** The last entry declaring the key, with only consultable entries after it, is what resolution returns. */
  lemma {:induction false} WinnerIsFound(chain: seq<Atom>, i: int, key: string, h: Host, d: PropDecl)
    requires 0 <= i < |chain| && WinsAt(chain, i, key, h, d)
    ensures Property(chain, key, h) == Ok(Some(d))
    decreases |chain|
  {
    var n := |chain| - 1;
    if i < n {
      WinsAtPrefix(chain, i, key, h, d);
      WinnerIsFound(chain[..n], i, key, h, d);
    }
  }

  /** Resolution picks the declaration of the LAST chain entry that declares the
      key, provided every later entry can be consulted: the more specific type wins. */
  lemma PropertyPrefersMostSpecific(chain: seq<Atom>, key: string, h: Host, d: PropDecl)
    ensures Property(chain, key, h) == Ok(Some(d)) <==>
      exists i :: 0 <= i < |chain| && WinsAt(chain, i, key, h, d)
  {
    if Property(chain, key, h) == Ok(Some(d)) {
      PropertyFindsWinner(chain, key, h, d);
    }
    if exists i :: 0 <= i < |chain| && WinsAt(chain, i, key, h, d) {
      var i :| 0 <= i < |chain| && WinsAt(chain, i, key, h, d);
      WinnerIsFound(chain, i, key, h, d);
    }
  }

  function Reverse(s: seq<Atom>): (r: seq<Atom>)
    ensures |r| == |s|
    ensures forall i :: 0 <= i < |s| ==> r[i] == s[|s| - 1 - i]
    decreases |s|
  {
    if |s| == 0 then [] else [s[|s| - 1]] + Reverse(s[..|s| - 1])
  }

  /** `_.find(chain, ...)`: consult the entries front to back, stop at the first declaration. */
  function SearchForward(chain: seq<Atom>, key: string, h: Host): Result<Option<PropDecl>>
    decreases |chain|
  {
    if |chain| == 0 then Ok(None)
    else
      var decls :- DeclarationsAt(h, chain[0]);
      if key in decls then Ok(Some(decls[key])) else SearchForward(chain[1..], key, h)
  }

  /** `property()` as written: `_.find(this.types.reverse(), ...)` reverses the
      stored chain in place, then searches the reversed array front to back.
      Returns the declaration found and the chain left behind. */
  function PropertyAsWritten(chain: seq<Atom>, key: string, h: Host): (Result<Option<PropDecl>>, seq<Atom>) {
    (SearchForward(Reverse(chain), key, h), Reverse(chain))
  }

  /** Searching the reversed chain front to back is the walk from the most specific entry. */
  lemma {:induction false} SearchReversed(chain: seq<Atom>, key: string, h: Host)
    ensures SearchForward(Reverse(chain), key, h) == Property(chain, key, h)
    decreases |chain|
  {
    if |chain| > 0 {
      var n := |chain| - 1;
      assert Reverse(chain)[1..] == Reverse(chain[..n]);
      SearchReversed(chain[..n], key, h);
    }
  }

  lemma ReverseReverse(s: seq<Atom>)
    ensures Reverse(Reverse(s)) == s
  {
  }

  /** As written, only every other call resolves from the most specific type:
      the first call is right and flips the stored chain, so the second call
      searches from the most general type, and flips it back. */
  lemma AsWrittenAlternates(chain: seq<Atom>, key: string, h: Host)
    ensures PropertyAsWritten(chain, key, h).0 == Property(chain, key, h)
    ensures PropertyAsWritten(chain, key, h).1 == Reverse(chain)
    ensures PropertyAsWritten(PropertyAsWritten(chain, key, h).1, key, h).0 == Property(Reverse(chain), key, h)
    ensures PropertyAsWritten(PropertyAsWritten(chain, key, h).1, key, h).1 == chain
  {
    SearchReversed(chain, key, h);
    SearchReversed(Reverse(chain), key, h);
    ReverseReverse(chain);
  }

  /** Two types in a chain both declare `p`; as written, the second lookup of
      `p` returns the general type's declaration instead of the specific one's. */
  lemma AsWrittenSecondLookupDisagrees()
    ensures var general := PropDecl(Many([Str("string")]), One(Bool(true)));
      var specific := PropDecl(Many([Str("/type/b")]), One(Bool(false)));
      var h := GraphHost([TypeN(TypeNode("/type/a", One(Undefined), Some(map["p" := general]), false)),
                          TypeN(TypeNode("/type/b", One(Undefined), Some(map["p" := specific]), false))],
                         map["/type/a" := 0, "/type/b" := 1]);
      var chain := [Str("/type/a"), Str("/type/b")];
      var first := PropertyAsWritten(chain, "p", h);
      var second := PropertyAsWritten(first.1, "p", h);
      first.0 == Ok(Some(specific)) && second.0 == Ok(Some(general)) && general != specific
  {
    var general := PropDecl(Many([Str("string")]), One(Bool(true)));
    var specific := PropDecl(Many([Str("/type/b")]), One(Bool(false)));
    var h := GraphHost([TypeN(TypeNode("/type/a", One(Undefined), Some(map["p" := general]), false)),
                        TypeN(TypeNode("/type/b", One(Undefined), Some(map["p" := specific]), false))],
                       map["/type/a" := 0, "/type/b" := 1]);
    var chain := [Str("/type/a"), Str("/type/b")];
    assert Reverse(chain) == [Str("/type/b"), Str("/type/a")];
    assert DeclarationsAt(h, Str("/type/b")) == Ok(map["p" := specific]);
    assert DeclarationsAt(h, Str("/type/a")) == Ok(map["p" := general]);
    assert Reverse(Reverse(chain)) == chain;
  }

  /** A key is undeclared exactly when every chain entry can be consulted and none declares it. */
  lemma {:induction false} PropertyUndeclared(chain: seq<Atom>, key: string, h: Host)
    ensures Property(chain, key, h) == Ok(None) <==> forall j :: 0 <= j < |chain| ==> PassesOver(h, chain[j], key)
    decreases |chain|
  {
    if |chain| > 0 {
      var n := |chain| - 1;
      var init := chain[..n];
      PropertyUndeclared(init, key, h);
      assert forall j :: 0 <= j < n ==> init[j] == chain[j];
    }
  }

  /** What `Object.get` answers. */
  datatype Reading =
    | Nothing                            // null
    | Raw(v: Value)                      // the stored value of a value-kind property
    | Ref(target: Option<Node>)          // host.get of a unique reference
    | Refs(targets: seq<Option<Node>>)   // host.get mapped over a non-unique reference

  /** `properties[key]`, undefined when absent. */
  function Stored(e: Entity, key: string): Value {
    Member(e.properties, key)
  }

  /** What `_.map(value, f)` visits: an array's members, a string's characters, nothing for other scalars. */
  function Elements(v: Value): seq<Atom> {
    match v
    case Many(xs) => xs
    case One(a) => if a.Str? then seq(|a.s|, i requires 0 <= i < |a.s| => Str([a.s[i]])) else []
  }

  /** `host.get` over each element, in order; any throw aborts the whole map. */
  function LookupAll(h: Host, xs: seq<Atom>): (r: Result<seq<Option<Node>>>)
    ensures r.Ok? <==> forall i :: 0 <= i < |xs| ==> HostGet(h, One(xs[i])).Ok?
    ensures r.Ok? ==> (|r.value| == |xs| &&
      forall i :: 0 <= i < |xs| ==> r.value[i] == HostGet(h, One(xs[i])).value)
    decreases |xs|
  {
    if |xs| == 0 then Ok([])
    else
      var first :- HostGet(h, One(xs[0]));
      var rest :- LookupAll(h, xs[1..]);
      Ok([first] + rest)
  }

  /** `Object.get(name)`: the four-way dispatch on value/reference kind and uniqueness. */
  function Get(e: Entity, name: string, h: Host): (r: Result<Reading>)
    ensures Property(e.types, name, h).Err? ==> r.Err?
    ensures Property(e.types, name, h) == Ok(None) ==> r == Ok(Nothing)
    ensures !Truthy(Stored(e, name)) && Property(e.types, name, h).Ok? ==> r == Ok(Nothing)
    ensures r.Ok? && r.value.Raw? ==> (r.value.v == Stored(e, name) && Truthy(r.value.v) &&
      Property(e.types, name, h).value.Some? && IsValueType(Property(e.types, name, h).value.value.kind))
    ensures r.Ok? && r.value.Ref? ==>
      HostGet(h, Stored(e, name)).Ok? && r.value.target == HostGet(h, Stored(e, name)).value
    ensures r.Ok? && r.value.Refs? ==> |r.value.targets| == |Elements(Stored(e, name))|
    ensures Property(e.types, name, h).Ok? && Property(e.types, name, h).value.Some? && Truthy(Stored(e, name)) ==>
      var d := Property(e.types, name, h).value.value;
      && (IsValueType(d.kind) ==> r == Ok(Raw(Stored(e, name))))
      && (!IsValueType(d.kind) && Truthy(d.unique) ==>
            (r.Ok? <==> HostGet(h, Stored(e, name)).Ok?) &&
            (r.Ok? ==> r == Ok(Ref(HostGet(h, Stored(e, name)).value))))
      && (!IsValueType(d.kind) && !Truthy(d.unique) ==>
            (r.Ok? <==> LookupAll(h, Elements(Stored(e, name))).Ok?) &&
            (r.Ok? ==> r == Ok(Refs(LookupAll(h, Elements(Stored(e, name))).value))))
  {
    var p :- Property(e.types, name, h);
    var value := Stored(e, name);
    if p.None? || !Truthy(value) then Ok(Nothing)
    else if IsValueType(p.value.kind) then Ok(Raw(value))
    else if Truthy(p.value.unique) then
      var n :- HostGet(h, value);
      Ok(Ref(n))
    else
      var ns :- LookupAll(h, Elements(value));
      Ok(Refs(ns))
  }

  /** A non-unique reference holding a list reads back as the host's answers for
      its members, one per member, in order. */
  lemma GetReferenceList(e: Entity, name: string, h: Host, d: PropDecl, xs: seq<Atom>)
    requires Property(e.types, name, h) == Ok(Some(d))
    requires !IsValueType(d.kind) && !Truthy(d.unique)
    requires Stored(e, name) == Many(xs)
    requires forall i :: 0 <= i < |xs| ==> HostGet(h, One(xs[i])).Ok?
    ensures Get(e, name, h).Ok? && Get(e, name, h).value.Refs?
    ensures var ns := Get(e, name, h).value.targets;
      |ns| == |xs| && forall i :: 0 <= i < |xs| ==> ns[i] == HostGet(h, One(xs[i])).value
  {
  }

  /** `Object.type()`: the host's answer for the most specific type id. When that
      is a type with declarations, each of them is the one property resolution returns. */
  function TypeOf(e: Entity, h: Host): (r: Result<Option<Node>>)
    ensures |e.types| > 0 && r.Ok? && r.value.Some? && r.value.value.TypeN? && r.value.value.t.properties.Some? ==>
      forall k :: k in r.value.value.t.properties.value ==>
        Property(e.types, k, h) == Ok(Some(r.value.value.t.properties.value[k]))
    ensures h.CollectionHost? && |e.types| > 0 && e.types[|e.types| - 1].Str? && HasTypePrefix(e.types[|e.types| - 1].s) ==>
      r == Ok(Some(TypeN(h.ctype)))
    ensures |e.types| == 0 ==> (r.Err? <==> h.CollectionHost?)
    ensures h.GraphHost? ==> var key := if |e.types| > 0 then AtomString(e.types[|e.types| - 1]) else "undefined";
      && r.Ok?
      && (r.value.Some? <==> key in h.keys && h.keys[key] < |h.nodes|)
      && (r.value.Some? ==> r.value.value == h.nodes[h.keys[key]])
  {
    HostGet(h, One(if |e.types| > 0 then e.types[|e.types| - 1] else Undefined))
  }

  /** The chain after `set(rec)`: a truthy `type` replaces it wholesale, a scalar as a singleton. */
  function ChainAfter(e: Entity, rec: Record): seq<Atom> {
    if Truthy(Field(rec, "type")) then ToArray(Field(rec, "type")) else e.types
  }

  /** Whether `set` stores the record's `key`: declared along the chain, and not `type`. */
  predicate Keeps(chain: seq<Atom>, key: string, h: Host) {
    key != "type" && Property(chain, key, h).Ok? && Property(chain, key, h).value.Some?
  }

  /** `Object.set(rec)`. The chain is replaced first; then every key `_.each`
      visits is resolved against the new chain and stored, overwriting, when
      declared. A record with a numeric `length` is visited by position, so its
      named keys are skipped. */
  function Set(e: Entity, rec: Record, h: Host): (r: Result<Entity>)
    ensures r.Ok? <==> (!Truthy(Field(rec, "meta")) &&
      forall k :: k in Visited(rec.fields) ==> Property(ChainAfter(e, rec), k, h).Ok?)
    ensures r.Ok? ==> r.value.id == e.id && r.value.deleted == e.deleted
    ensures r.Ok? ==> r.value.types == ChainAfter(e, rec)
    ensures r.Ok? ==> forall k :: k in Visited(rec.fields) && Keeps(ChainAfter(e, rec), k, h) ==>
      k in r.value.properties && r.value.properties[k] == Field(rec, k)
    ensures r.Ok? ==> forall k :: k in r.value.properties ==>
      k in e.properties || (k in Visited(rec.fields) && Keeps(ChainAfter(e, rec), k, h))
    ensures r.Ok? ==> forall k :: k in e.properties && !(k in Visited(rec.fields) && Keeps(ChainAfter(e, rec), k, h)) ==>
      k in r.value.properties && r.value.properties[k] == e.properties[k]
  {
    var chain := ChainAfter(e, rec);
    var keys := Visited(rec.fields);
    if Truthy(Field(rec, "meta")) then Err(MetaGiven)
    else if exists k :: k in keys && Property(chain, k, h).Err? then Err(BrokenTypeChain)
    else
      var kept := set k | k in keys && Keeps(chain, k, h);
      Ok(e.(types := chain,
            properties := map k | k in e.properties.Keys + kept ::
                            if k in kept then Field(rec, k) else e.properties[k]))
  }

  /** Setting the same record twice changes nothing the second time. */
  lemma SetIdempotent(e: Entity, rec: Record, h: Host)
    requires Set(e, rec, h).Ok?
    ensures Set(Set(e, rec, h).value, rec, h) == Set(e, rec, h)
  {
    var e1 := Set(e, rec, h).value;
    var chain := ChainAfter(e, rec);
    assert ChainAfter(e1, rec) == chain;
    var e2 := Set(e1, rec, h).value;
    assert e2.properties.Keys == e1.properties.Keys;
    forall k | k in e1.properties
      ensures e2.properties[k] == e1.properties[k]
    {
      if k in Visited(rec.fields) && Keeps(chain, k, h) {
        assert e2.properties[k] == Field(rec, k);
      }
    }
    assert e2.properties == e1.properties;
  }

  /** The record carries a string `_id`, as Graph.set and Collection.add arrange before building an object. */
  predicate HasStringId(rec: Record) {
    "_id" in rec.fields && rec.fields["_id"].One? && rec.fields["_id"].atom.Str?
  }

  /** `new Data.Object(rec, host)`: an entity with no stored values, then `set(rec)`.
      Without a truthy `type` the chain is undefined and the first key's lookup throws. */
  function NewEntity(rec: Record, h: Host): (r: Result<Entity>)
    requires HasStringId(rec)
    ensures r.Ok? <==> (!Truthy(Field(rec, "meta")) && Truthy(Field(rec, "type")) &&
      forall k :: k in Visited(rec.fields) ==> Property(ToArray(Field(rec, "type")), k, h).Ok?)
    ensures r.Ok? ==> r.value.id == rec.fields["_id"].atom.s && !r.value.deleted
    ensures r.Ok? ==> Truthy(Field(rec, "type")) && r.value.types == ToArray(Field(rec, "type"))
    ensures r.Ok? ==> forall k :: k in r.value.properties <==> k in Visited(rec.fields) && Keeps(r.value.types, k, h)
    ensures r.Ok? ==> forall k :: k in r.value.properties ==> r.value.properties[k] == Field(rec, k)
  {
    if Truthy(Field(rec, "meta")) then Err(MetaGiven)
    else if !Truthy(Field(rec, "type")) then Err(NoTypeChain)
    else Set(Entity(rec.fields["_id"].atom.s, [], map[], false), rec, h)
  }

  /** A record with a numeric `length` is walked by position: `set` stores none
      of its named keys, so `name` and `length` themselves are skipped. */
  lemma ArrayLikeSkipsNamedKeys(e: Entity, rec: Record, h: Host, k: string)
    requires ArrayLike(rec.fields) && Set(e, rec, h).Ok?
    requires exists i :: 0 <= i < |k| && !IsDigit(k[i])
    ensures k in Set(e, rec, h).value.properties <==> k in e.properties
    ensures k in e.properties ==> Set(e, rec, h).value.properties[k] == e.properties[k]
  {
  }

  /** A fresh entity built from an array-like record stores only position keys. */
  lemma NewEntityOfArrayLike(rec: Record, h: Host)
    requires HasStringId(rec) && ArrayLike(rec.fields) && NewEntity(rec, h).Ok?
    ensures forall k :: k in NewEntity(rec, h).value.properties ==> forall i :: 0 <= i < |k| ==> IsDigit(k[i])
  {
  }

  /** Every stored key is declared somewhere along the entity's chain. */
  predicate Conforms(e: Entity, h: Host) {
    forall k :: k in e.properties ==> Keeps(e.types, k, h)
  }

  /** A freshly built entity only stores declared keys, and never `type`. */
  lemma NewEntityConforms(rec: Record, h: Host)
    requires HasStringId(rec)
    requires NewEntity(rec, h).Ok?
    ensures Conforms(NewEntity(rec, h).value, h)
    ensures "type" !in NewEntity(rec, h).value.properties
  {
  }

  /** An update that leaves the chain alone keeps an entity conforming. */
  lemma SetKeepsConformance(e: Entity, rec: Record, h: Host)
    requires Conforms(e, h)
    requires !Truthy(Field(rec, "type"))
    requires Set(e, rec, h).Ok?
    ensures Conforms(Set(e, rec, h).value, h)
  {
  }

  /** Every falsy stored value of a declared property reads back as null: `0`, `false` and `""` included. */
  lemma FalsyReadsAsNull(e: Entity, name: string, h: Host, a: Atom)
    requires Property(e.types, name, h).Ok?
    requires Stored(e, name) == One(a) && !TruthyAtom(a)
    ensures Get(e, name, h) == Ok(Nothing)
  {
  }
}

=== FILE: query.dfy ===
/** `Data.Query.query`: the full-scan filter shared by Data.Graph and Data.Collection. */
module Query {

  import opened Values
  import opened Objects
  import opened Index

  /** A query object: selector key to one expected value or a list of them. */
  type Selector = map<string, Value>

  /** What a key is compared against: the type chain for `type`, the stored value otherwise. */
  function Actual(e: Entity, key: string): Value {
    if key == "type" then Many(e.types) else Stored(e, key)
  }

  /** One key matches when expected and actual values, each as a list, intersect (OR within a key). */
  predicate KeyMatches(e: Entity, key: string, expected: Value) {
    Intersects(ToArray(expected), ToArray(Actual(e, key)))
  }

  /** `match(obj, qry)`: every key `_.find` visits must match (AND across keys).
      A query with a numeric `length` is visited by position, not by its keys. */
  predicate Matches(e: Entity, q: Selector) {
    forall k :: k in Visited(q) ==> KeyMatches(e, k, Member(q, k))
  }

  /** An entity matches iff, for every visited key, some expected value equals some actual value. */
  lemma MatchesIff(e: Entity, q: Selector)
    ensures Matches(e, q) <==> forall k :: k in Visited(q) ==>
      exists i, j :: 0 <= i < |ToArray(Member(q, k))| && 0 <= j < |ToArray(Actual(e, k))| &&
        ToArray(Member(q, k))[i] == ToArray(Actual(e, k))[j]
  {
    forall k | k in Visited(q) {
      IntersectsIff(ToArray(Member(q, k)), ToArray(Actual(e, k)));
    }
  }

  /** A query with a numeric `length` ignores its named keys, `type` included:
      it matches every entity that stores none of the visited positions, as
      `{type: "/type/track", length: 240}` matches every entity of the store. */
  lemma ArrayLikeQueryIgnoresKeys(e: Entity, q: Selector)
    requires ArrayLike(q)
    requires forall k :: k in Visited(q) ==> k !in q && k !in e.properties
    ensures Matches(e, q)
  {
    forall k | k in Visited(q)
      ensures KeyMatches(e, k, Member(q, k))
    {
      assert IsDigit(k[0]) && !IsDigit('t');
      assert Common([Undefined], [Undefined]) == [Undefined];
    }
  }

  /** An absent property reads as `[undefined]`, not as an empty list: a query
      expecting `undefined` under a key the entity lacks matches it. */
  lemma AbsentKeyMatchesUndefined(e: Entity, key: string)
    requires key != "type" && key !in e.properties
    ensures Matches(e, map[key := One(Undefined)])
  {
    assert Common([Undefined], [Undefined]) == [Undefined];
  }

  /** `_.select(xs, p)`: the members satisfying `p`, in order. */
  function Filter<T>(xs: seq<T>, p: T -> bool): (r: seq<T>)
    ensures |r| <= |xs|
    ensures forall x :: x in r ==> x in xs && p(x)
    decreases |xs|
  {
    if |xs| == 0 then []
    else
      var n := |xs| - 1;
      Filter(xs[..n], p) + (if p(xs[n]) then [xs[n]] else [])
  }

  /** The positions of the members satisfying `p`: increasing, and exactly those that satisfy it. */
  function FilterPositions<T>(xs: seq<T>, p: T -> bool): (pos: seq<nat>)
    ensures forall k :: 0 <= k < |pos| ==> pos[k] < |xs|
    ensures forall k, l :: 0 <= k < l < |pos| ==> pos[k] < pos[l]
    ensures forall i :: 0 <= i < |xs| ==> (p(xs[i]) <==> i in pos)
    decreases |xs|
  {
    if |xs| == 0 then []
    else
      var n := |xs| - 1;
      var init := xs[..n];
      var pos0 := FilterPositions(init, p);
      assert forall i :: 0 <= i < n ==> init[i] == xs[i];
      pos0 + (if p(xs[n]) then [n] else [])
  }

  /** The k-th kept member is the member at the k-th satisfying position. */
  lemma {:induction false} FilterIsOrdered<T>(xs: seq<T>, p: T -> bool)
    ensures |FilterPositions(xs, p)| == |Filter(xs, p)|
    ensures forall k :: 0 <= k < |Filter(xs, p)| ==> Filter(xs, p)[k] == xs[FilterPositions(xs, p)[k]]
    decreases |xs|
  {
    if |xs| > 0 {
      var n := |xs| - 1;
      var init := xs[..n];
      FilterIsOrdered(init, p);
      var pos0 := FilterPositions(init, p);
      forall k | 0 <= k < |pos0|
        ensures xs[pos0[k]] == init[pos0[k]]
      {
      }
    }
  }

  /** `_.select(objects, function(o) { return match(o, qry); })`. */
  function Select(objs: seq<Entity>, q: Selector): (r: seq<Entity>)
    ensures |r| <= |objs|
    ensures forall x :: x in r ==> x in objs && Matches(x, q)
  {
    Filter(objs, e => Matches(e, q))
  }

  /** The positions of the matching entities. */
  function MatchPositions(objs: seq<Entity>, q: Selector): seq<nat> {
    FilterPositions(objs, e => Matches(e, q))
  }

  /** The result is exactly the matching entities, in their original order: the
      k-th result is the entity at the k-th matching position. */
  lemma SelectIsOrderedFilter(objs: seq<Entity>, q: Selector)
    ensures var pos := MatchPositions(objs, q);
      && |pos| == |Select(objs, q)|
      && (forall k :: 0 <= k < |pos| ==> pos[k] < |objs| && Select(objs, q)[k] == objs[pos[k]])
      && (forall k, l :: 0 <= k < l < |pos| ==> pos[k] < pos[l])
      && (forall i :: 0 <= i < |objs| ==> (Matches(objs[i], q) <==> i in pos))
  {
    FilterIsOrdered(objs, e => Matches(e, q));
  }

  /** There are as many matching positions as results. */
  lemma MatchPositionsCount(objs: seq<Entity>, q: Selector)
    ensures |MatchPositions(objs, q)| == |Select(objs, q)|
  {
    FilterIsOrdered(objs, e => Matches(e, q));
  }

  /** Queries with the same `length` whose keys expect the same lists match the same entities. */
  lemma SameArraysSameMatches(q1: Selector, q2: Selector)
    requires q1.Keys == q2.Keys
    requires Member(q1, "length") == Member(q2, "length")
    requires forall k :: k in q1 ==> ToArray(q1[k]) == ToArray(q2[k])
    ensures forall e :: Matches(e, q1) == Matches(e, q2)
  {
  }

  /** Two queries that match the same entities select the same list. */
  lemma {:induction false} SelectSameMatches(objs: seq<Entity>, q1: Selector, q2: Selector)
    requires forall e :: Matches(e, q1) == Matches(e, q2)
    ensures Select(objs, q1) == Select(objs, q2)
    decreases |objs|
  {
    if |objs| > 0 {
      SelectSameMatches(objs[..|objs| - 1], q1, q2);
    }
  }

  /** Every matching entity of the scanned list is in the result. */
  lemma SelectIsComplete(objs: seq<Entity>, q: Selector, x: Entity)
    ensures x in Select(objs, q) <==> x in objs && Matches(x, q)
  {
    SelectIsOrderedFilter(objs, q);
    if x in objs && Matches(x, q) {
      var i :| 0 <= i < |objs| && objs[i] == x;
      var pos := MatchPositions(objs, q);
      var k :| 0 <= k < |pos| && pos[k] == i;
      assert Select(objs, q)[k] == x;
    }
  }

  /** Filtering a list of distinct ids keeps them distinct. */
  lemma SelectKeepsDistinctIds(objs: seq<Entity>, q: Selector)
    requires Distinct(EntityIds(objs))
    ensures Distinct(EntityIds(Select(objs, q)))
  {
    SelectIsOrderedFilter(objs, q);
    var r := Select(objs, q);
    var pos := MatchPositions(objs, q);
    forall i, j | 0 <= i < j < |r|
      ensures EntityIds(r)[i] != EntityIds(r)[j]
    {
      assert r[i] == objs[pos[i]] && r[j] == objs[pos[j]];
      assert EntityIds(objs)[pos[i]] != EntityIds(objs)[pos[j]];
    }
  }
}

=== FILE: results.dfy ===
/** Outcomes shared by the whole model.

    The source reports no errors: its failure modes are `null`/`undefined`
    results and TypeErrors thrown by the JavaScript runtime. A `Fault` names
    one such TypeError; the model returns it where the source would throw. */
module Results {

  datatype Option<+T> = None | Some(value: T)

  datatype Fault =
    | BrokenTypeChain   // property(): a chain entry does not resolve to a type with declared properties
    | NoTypeChain       // an object is built from a record whose `type` is falsy
    | MetaGiven         // Object.set with a truthy `meta` reads `this.object.meta` of undefined
    | TypeNotUpdatable  // an update reaches a Data.Type, which has no `set`
    | NoIdPrefix        // id synthesis: the most specific type is not a string to split
    | NonStringId       // Collection.get on an id that has no `match`
    | NoSuchPosition    // Collection.key reads `_id` past the end
    | QueryTypeMissing  // the query's type does not resolve to a Data.Type

  datatype Result<+T> = Ok(value: T) | Err(fault: Fault) {

    predicate IsFailure() {
      Err?
    }

    function PropagateFailure<U>(): Result<U>
      requires Err?
    {
      Err(fault)
    }

    function Extract(): T
      requires Ok?
    {
      value
    }
  }
}

=== FILE: schema.dfy ===
/** The schema layer: property declarations and `Data.Type` nodes.

    A record is the plain object handed to the store: its members other than
    `properties`, plus the `properties` table a type record declares. */
module Schema {

  import opened Results
  import opened Values

  /** The type every type node has; a record whose most specific type is this becomes a Data.Type. */
  const TypeOfTypes: string := "/type/type"

  /** Ids a Collection answers with its own type (`id.match('^/type/')`). */
  const TypeIdPrefix: string := "/type/"

  /** `Data.VALUE_TYPES`: the kinds that are stored values rather than references. */
  const ValueTypes: seq<string> := ["string", "object", "number", "boolean", "date"]

  /** One property declaration `{type: ..., unique: ...}` as given. */
  datatype PropDecl = PropDecl(kind: Value, unique: Value)

  datatype Record = Record(fields: map<string, Value>, schema: Option<map<string, PropDecl>>)

  datatype TypeNode = TypeNode(id: string, name: Value, properties: Option<map<string, PropDecl>>, deleted: bool)

  /** `record[key]`, undefined when absent. */
  function Field(rec: Record, key: string): Value {
    Member(rec.fields, key)
  }

  /** A truthy `_id`, when given, is a string: JavaScript's coercion of other keys is not modelled. */
  predicate IdIsString(rec: Record) {
    Truthy(Field(rec, "_id")) ==> rec.fields["_id"].One? && rec.fields["_id"].atom.Str?
  }

  predicate HasTypePrefix(id: string) {
    |id| >= |TypeIdPrefix| && id[..|TypeIdPrefix|] == TypeIdPrefix
  }

  /** `_.isBoolean`. */
  predicate IsBoolean(v: Value) {
    v.One? && v.atom.Bool?
  }

  /** A declaration as Data.Type leaves it: a list of kinds and a boolean `unique`. */
  predicate IsNormal(d: PropDecl) {
    d.kind.Many? && IsBoolean(d.unique)
  }

  /** The normalisation Data.Type applies to each declaration: the kind becomes a
      list, and `unique` defaults to true unless it is a boolean. */
  function NormalizeDecl(d: PropDecl): (r: PropDecl)
    ensures IsNormal(r)
    ensures r.kind.items == ToArray(d.kind)
    ensures Truthy(r.unique) <==> !(IsBoolean(d.unique) && !d.unique.atom.b)
    ensures IsNormal(d) ==> r == d
  {
    PropDecl(Many(ToArray(d.kind)), if IsBoolean(d.unique) then d.unique else One(Bool(true)))
  }

  predicate IsNormalTable(ps: Option<map<string, PropDecl>>) {
    ps.Some? ==> forall k :: k in ps.value ==> IsNormal(ps.value[k])
  }

  function NormalizeTable(ps: Option<map<string, PropDecl>>): (r: Option<map<string, PropDecl>>)
    ensures IsNormalTable(r)
    ensures r.Some? <==> ps.Some?
    ensures ps.Some? ==> r.value.Keys == ps.value.Keys
    ensures ps.Some? ==> forall k :: k in ps.value ==> r.value[k] == NormalizeDecl(ps.value[k])
  {
    match ps
    case None => None
    case Some(m) => Some(map k | k in m :: NormalizeDecl(m[k]))
  }

  /** `new Data.Type(rec)` for a record whose `_id` is `id`. Meta and index hints are not kept. */
  function MakeType(id: string, rec: Record): (t: TypeNode)
    ensures t.id == id && t.name == Field(rec, "name") && !t.deleted
    ensures IsNormalTable(t.properties)
    ensures t.properties.Some? <==> rec.schema.Some?
    ensures rec.schema.Some? ==> t.properties.value.Keys == rec.schema.value.Keys
    ensures rec.schema.Some? ==> forall k :: k in rec.schema.value ==> t.properties.value[k] == NormalizeDecl(rec.schema.value[k])
  {
    TypeNode(id, Field(rec, "name"), NormalizeTable(rec.schema), false)
  }

  /** The type node read back as a record, as `Data.Collection.create` hands it to `new Data.Type`. */
  function TypeRecord(t: TypeNode): Record {
    Record(map["_id" := One(Str(t.id)), "type" := One(Str(TypeOfTypes)), "name" := t.name], t.properties)
  }

  /** Rebuilding a type from itself gives the same type, except that the new
      object has no `_deleted` flag: normalisation is idempotent. */
  lemma RebuildType(t: TypeNode)
    requires IsNormalTable(t.properties)
    ensures MakeType(t.id, TypeRecord(t)) == t.(deleted := false)
  {
    var r := MakeType(t.id, TypeRecord(t));
    if t.properties.Some? {
      assert r.properties.value == t.properties.value;
    }
  }

  /** `Data.isValueType(kind)`: decided by `_.last(kind)` alone. A scalar kind
      never qualifies: its `_.last` is its last character. */
  predicate IsValueType(kind: Value) {
    match kind
    case Many(ks) => |ks| > 0 && ks[|ks| - 1].Str? && ks[|ks| - 1].s in ValueTypes
    case One(_) => false
  }

  /** Only the last listed kind matters: earlier entries never change the answer. */
  lemma ValueKindIsTheLastKind(ks: seq<Atom>, k: Atom)
    ensures IsValueType(Many(ks + [k])) <==> k.Str? && k.s in ValueTypes
    ensures IsValueType(Many(ks + [k])) == IsValueType(Many([k]))
  {
  }
}

=== FILE: values.dfy ===
/** The JavaScript values the object graph stores and compares.

    A stored value is a scalar or an array of scalars. Scalars compare with
    `===`, which on these atoms is structural equality. */
module Values {

  datatype Atom = Str(s: string) | Num(n: int) | Bool(b: bool) | Null | Undefined

  datatype Value = One(atom: Atom) | Many(items: seq<Atom>)

  /** JavaScript truthiness: "", 0, false, null and undefined are falsy; every array is truthy. */
  predicate TruthyAtom(a: Atom) {
    match a
    case Str(s) => s != ""
    case Num(n) => n != 0
    case Bool(b) => b
    case Null => false
    case Undefined => false
  }

  predicate Truthy(v: Value) {
    v.Many? || TruthyAtom(v.atom)
  }

  /** `_.isArray(v) ? v : [v]`: an array as it is, a scalar as a singleton. */
  function ToArray(v: Value): seq<Atom> {
    match v
    case One(a) => [a]
    case Many(xs) => xs
  }

  predicate IsDigit(c: char) {
    '0' as int <= c as int <= '9' as int
  }

  /** The character of a decimal digit. */
  function DigitChar(d: nat): (c: char)
    requires d < 10
    ensures IsDigit(c)
  {
    ('0' as int + d) as char
  }

  /** `String(n)` for an integer: its decimal digits, after a minus sign when negative. */
  function DecimalString(n: int): (r: string)
    ensures |r| > 0
    ensures n >= 0 ==> forall i :: 0 <= i < |r| ==> IsDigit(r[i])
    ensures n < 0 <==> r[0] == '-'
    decreases if n < 0 then 1 - n else n
  {
    if n < 0 then "-" + DecimalString(-n)
    else if n < 10 then [DigitChar(n)]
    else DecimalString(n / 10) + [DigitChar(n % 10)]
  }

  /** The number a string of decimal digits denotes, read left to right. */
  function DecimalValue(s: string): nat
    requires forall i :: 0 <= i < |s| ==> IsDigit(s[i])
    decreases |s|
  {
    if |s| == 0 then 0
    else
      assert IsDigit(s[|s| - 1]);
      DecimalValue(s[..|s| - 1]) * 10 + (s[|s| - 1] as int - '0' as int)
  }

  /** The decimal digits of a natural number read back as that number, with no leading zero. */
  lemma {:induction false} DecimalRoundTrip(n: nat)
    ensures DecimalValue(DecimalString(n)) == n
    ensures DecimalString(n)[0] == '0' ==> n == 0
    decreases n
  {
    var r := DecimalString(n);
    if n >= 10 {
      var r0 := DecimalString(n / 10);
      DecimalRoundTrip(n / 10);
      assert r[..|r| - 1] == r0;
      assert r[0] == r0[0];
    }
  }

  /** `String(a)` for a scalar. */
  function AtomString(a: Atom): string {
    match a
    case Str(s) => s
    case Num(n) => DecimalString(n)
    case Bool(b) => if b then "true" else "false"
    case Null => "null"
    case Undefined => "undefined"
  }

  /** How `Array.prototype.join` writes one member: null and undefined as "". */
  function JoinedAtom(a: Atom): string {
    if a.Null? || a.Undefined? then "" else AtomString(a)
  }

  /** `xs.join(",")`. */
  function Join(xs: seq<Atom>): string
    decreases |xs|
  {
    if |xs| == 0 then ""
    else if |xs| == 1 then JoinedAtom(xs[0])
    else JoinedAtom(xs[0]) + "," + Join(xs[1..])
  }

  /** The property key JavaScript makes of a value, as `keys[v]` does: a
      scalar's `String`, an array's members joined with commas. */
  function KeyString(v: Value): string {
    match v
    case One(a) => AtomString(a)
    case Many(xs) => Join(xs)
  }

  /** A one-element array names the same key as its member, unless that member is null or undefined. */
  lemma SingletonKey(a: Atom)
    ensures KeyString(Many([a])) == KeyString(One(a)) <==> !(a.Null? || a.Undefined?)
  {
    if a.Null? || a.Undefined? {
      assert KeyString(Many([a])) == "";
    }
  }

  /** `obj[key]` of a plain object: undefined when absent. */
  function Member(fields: map<string, Value>, key: string): Value {
    if key in fields then fields[key] else One(Undefined)
  }

  /** Underscore walks an object like an array when its `length` is a number. */
  predicate ArrayLike(fields: map<string, Value>) {
    Member(fields, "length").One? && Member(fields, "length").atom.Num?
  }

  /** `k` is the canonical decimal key of a position below `n`: digits only,
      no leading zero, and denoting a number less than `n`. */
  predicate PositionKey(k: string, n: int) {
    && |k| > 0 && (forall i :: 0 <= i < |k| ==> IsDigit(k[i]))
    && DecimalValue(k) < n && DecimalString(DecimalValue(k)) == k
  }

  /** The decimal keys of the positions below `n`: none when `n` is not positive. */
  function Positions(n: int): (r: set<string>)
    ensures forall k :: k in r ==> PositionKey(k, n)
    decreases n
  {
    if n <= 0 then {}
    else
      DecimalRoundTrip(n - 1);
      Positions(n - 1) + {DecimalString(n - 1)}
  }

  /** The keys `_.each` and `_.find` visit on a plain object: for an array-like
      one the positions below its `length`, for any other its own keys. */
  function Visited(fields: map<string, Value>): (r: set<string>)
    ensures !ArrayLike(fields) ==> r == fields.Keys
    ensures ArrayLike(fields) ==> forall k :: k in r ==> PositionKey(k, fields["length"].atom.n)
  {
    if ArrayLike(fields) then Positions(fields["length"].atom.n) else fields.Keys
  }

  /** Distinct integers are written differently. */
  lemma DecimalStringInjective(i: int, j: nat)
    requires i != j
    ensures DecimalString(i) != DecimalString(j)
  {
    if i >= 0 {
      DecimalRoundTrip(i);
      DecimalRoundTrip(j);
    } else {
      assert DecimalString(i)[0] == '-' && DecimalString(j)[0] != '-';
    }
  }

  /** Position `i`'s decimal key is among the keys below `n` exactly when `0 <= i < n`. */
  lemma {:induction false} PositionsIff(n: int, i: int)
    ensures DecimalString(i) in Positions(n) <==> 0 <= i < n
    decreases n
  {
    if n > 0 {
      PositionsIff(n - 1, i);
      if i != n - 1 {
        DecimalStringInjective(i, n - 1);
      }
    }
  }

  /** An array-like object is visited at exactly the positions below its `length`. */
  lemma VisitedPositions(fields: map<string, Value>, i: int)
    requires ArrayLike(fields)
    ensures DecimalString(i) in Visited(fields) <==> 0 <= i < fields["length"].atom.n
  {
    PositionsIff(fields["length"].atom.n, i);
  }

  /** `_.intersect(xs, ys)`: the members of `xs` that also occur in `ys`, in the order of `xs`. */
  function Common(xs: seq<Atom>, ys: seq<Atom>): (r: seq<Atom>)
    ensures |r| <= |xs|
    ensures forall a :: a in r <==> a in xs && a in ys
    decreases |xs|
  {
    if |xs| == 0 then []
    else (if xs[0] in ys then [xs[0]] else []) + Common(xs[1..], ys)
  }

  /** The test the query engine applies: the intersection is not empty. */
  predicate Intersects(xs: seq<Atom>, ys: seq<Atom>) {
    |Common(xs, ys)| != 0
  }

  /** Intersection is non-empty exactly when the two lists share a member. */
  lemma IntersectsIff(xs: seq<Atom>, ys: seq<Atom>)
    ensures Intersects(xs, ys) <==> exists i, j :: 0 <= i < |xs| && 0 <= j < |ys| && xs[i] == ys[j]
  {
    if Intersects(xs, ys) {
      var a := Common(xs, ys)[0];
      assert a in xs && a in ys;
      var i :| 0 <= i < |xs| && xs[i] == a;
      var j :| 0 <= j < |ys| && ys[j] == a;
    } else if exists i, j :: 0 <= i < |xs| && 0 <= j < |ys| && xs[i] == ys[j] {
      var i, j :| 0 <= i < |xs| && 0 <= j < |ys| && xs[i] == ys[j];
      assert xs[i] in Common(xs, ys);
    }
  }
}
